=== FILE: README.md ===
# AniReco caching gateway — a Dafny model

AniReco answers anime recommendation queries by forwarding them to the Jikan
API, with Redis in front. This project models the request path of that
gateway:

- **Genre lookup** (`src/lookups.py`). Genre labels become Jikan genre ids
  through a per-domain Redis hash table. The table is filled once from the
  upstream genre list, inserting each name only if it is absent, under its
  lower-cased name.
- **Upstream call** (`src/jikan.py`). `fetch_jikan` performs the GET. It
  decodes the body, rejects any non-2xx status, and rejects a body that
  embeds a failing `status`.
- **Cache tier classifier** (`src/cache/redis_database.py`). `get_cache_level`
  picks a tier (`l1` or `l2`) and a TTL. It looks at the request's hotness,
  an empty upstream result, and the average hotness of the tracked
  parameters, in that order.
- **Request collapser** (`RequestCollapser.run` in `src/request_handlers.py`).
  It keeps a map from request names to pending futures. Concurrent identical
  requests share one upstream fetch.
- **Handler** (`reco_request_handler`). The steps are:
  1. Resolve genres.
  2. Name the request.
  3. Bump the request counter and the parameter hotness counters.
  4. Probe `l1`, then `l2`, and re-tier a hit.
  5. On a double miss, fetch through the collapser and cache the body in
     the tier the classifier picks.

The modules follow the source files:

| module | file | form |
|---|---|---|
| `Types` | shared data | datatypes for responses, bodies, parameters and errors; ASCII lower-casing; `str` of integers; the comma join |
| `Jikan` | `jikan.py` | `Client` class with a fixed answer function and a ghost log of the calls made; `CheckResponse` as a function; `FetchJikan` as a method |
| `KeyValue` | Redis | `Store` class with `INCR`, `EXPIRE`, `GET`, `SETNX`, `HSETNX`, `HGET`, `EXISTS` |
| `CacheLevels` | `redis_database.py` | `Classify` as the reference cascade; `GetCacheLevel` as the method with the summing loop, proved equal to it |
| `Lookups` | `lookups.py` | the population and resolution loops as methods, proved against `Populated` and `Resolve` |
| `Collapser` | `RequestCollapser` | class over `pendings: map<string, Future>`; the two locked sections of `run` are `Begin` and `Finish` |
| `RequestHandlers` | `reco_request_handler` | the handler as a method composed of its steps, each with its own contract |

Errors the source raises are values of `Types.Error`:

| `Types.Error` | source error |
|---|---|
| `HttpError(status)` | `HTTPException` |
| `InvalidStatus(status)` | the `ValueError` that `HTTPException(status_code=…)` without a `detail` raises for a code `http.HTTPStatus` does not register (the embedded-status check, `src/jikan.py:14`) |
| `DecodeError` | a JSON decode error |
| `MissingData` | a `KeyError` or `TypeError` on `["data"]` |
| `UnknownTable` | a `KeyError` on `look_ups` |
| `UnresolvedLabel` | the `TypeError` from `int(None)` |
| `ZeroDivision` | `ZeroDivisionError` |

Three behaviours of the code shape the model:

- **Empty tracked-parameter map.** `src/cache/redis_database.py:23` divides
  by `len(hot_params)` without a guard. A request that is neither hot nor
  negatively cached, with no tracked parameter, therefore fails with
  `ZeroDivision` (see `CacheLevels.EmptyHotParamsFail`).
- **Unresolved genre label.** `src/lookups.py:36` applies `int` to whatever
  `HGET` returned, so the first label missing from the table raises. The
  model reports that first label as `UnresolvedLabel`, and no later label is
  looked up.
- **Genre table URLs.** The `look_ups` dictionary at `src/lookups.py:10-13`
  fills `lookup:genres:anime` from the manga genre list and
  `lookup:genres:manga` from the anime genre list. `Lookups.LookupUrl`
  states exactly that pairing.

## Model

| member | source | states |
|---|---|---|
| Types.Lower | src/lookups.py:29 | lower-casing keeps the length, leaves no upper-case letter, keeps every other character, and moves each upper-case letter to its lower-case partner |
| Types.LowerIdempotent | src/lookups.py:29-35 | lower-casing an already lower-cased name changes nothing, so the name stored by `HSETNX` is the one `HGET` asks for |
| Types.NatToString | src/request_handlers.py:75 | `str` of a non-negative id is a non-empty string of decimal digits that reads back as the id and has no leading zero (it starts with `0` only for 0) |
| Types.JoinIds | src/request_handlers.py:75 | the comma join of a non-empty id list holds one comma fewer than there are ids, and splitting it on commas gives back `str` of each id, in order |
| Jikan.Client.Get | src/jikan.py:8 | the GET answers with the client's response for (url, params) and appends exactly that call to the call log |
| Jikan.CheckResponse | src/jikan.py:8-18 | a response passes only unchanged, with a 2xx code and no embedded failing status; every HTTP failure carries a non-2xx code or a registered embedded failure code; an embedded failure code that is not registered fails as `InvalidStatus` with that code |
| Jikan.FetchJikan | src/jikan.py:4-22 | one upstream call, logged; its result is the status classification of that call's response |
| Jikan.HttpStatusFirst | src/jikan.py:9-10 | a decodable non-2xx response fails with its own HTTP code whatever the body embeds |
| Jikan.EmbeddedStatusFails | src/jikan.py:12-14 | a 2xx response whose object body embeds a registered failure code fails with that code |
| Jikan.UnregisteredStatusFails | src/jikan.py:12-14 | a 2xx response whose object body embeds an unregistered code of 400 or more fails while the exception is built, as `InvalidStatus` with that code |
| Jikan.SuccessPassesThrough | src/jikan.py:12-18 | a decodable 2xx response passes unchanged if and only if it does not embed a failing status |
| Jikan.DecodeFirst | src/jikan.py:8-10 | an undecodable body fails with a decode error before any status is looked at, whatever the code |
| KeyValue.Store.Incr | src/request_handlers.py:87 | `INCR` returns the previous count plus one (absent counts as 0) and stores it; nothing else changes |
| KeyValue.Store.Expire | src/request_handlers.py:91 | `EXPIRE` sets the TTL exactly when the key exists, and reports whether it did |
| KeyValue.Store.Exists | src/lookups.py:19 | a key that does not exist reads as absent to `GET`, `INCR` and `HGET`; a key carrying a TTL exists |
| KeyValue.Store.SetNx | src/request_handlers.py:121 | `SETNX` stores the value exactly when the key did not exist, and otherwise leaves the values untouched; afterwards the key exists and `GET` returns the stored value, or the old one when there was one |
| KeyValue.Store.HSetNx | src/lookups.py:29 | `HSETNX` adds the field exactly when the hash lacks it, and otherwise leaves every hash untouched; afterwards `HGET` finds the field, with the new value only when it was added |
| CacheLevels.TotalRemove | src/cache/redis_database.py:21-22 | the sum of the values splits into any one entry plus the sum of the rest, so the summing loop may visit the entries in any order |
| CacheLevels.Classify | src/cache/redis_database.py:4-30 | every tier the cascade picks is consistent with its TTL: l1 with 120 or 150, l2 with 60 |
| CacheLevels.GetCacheLevel | src/cache/redis_database.py:4-30 | the method with the summing loop returns exactly the cascade's decision, including its failures |
| CacheLevels.HotRequestWins | src/cache/redis_database.py:6-8 | a request hotness above 5 gives l1 for 120 whatever the parameters and the response are |
| CacheLevels.NegativeCacheOnlyWithEmptyResponse | src/cache/redis_database.py:10-17 | the negative-cache tier (l2, 60) is chosen if and only if the request is not hot and a response is present with an empty `data` list |
| CacheLevels.NonEmptyResponseIrrelevant | src/cache/redis_database.py:10-17 | a response with a non-empty `data` list gives the same decision as no response |
| CacheLevels.HotParamsThreshold | src/cache/redis_database.py:20-30 | past the first two checks, with at least one tracked parameter, the decision is l1 for 150 if and only if the average hotness is above 10, and l2 for 60 if and only if it is not |
| CacheLevels.TotalOfTwo | src/cache/redis_database.py:20-22 | the summing loop over two distinct entries yields their sum |
| CacheLevels.AverageThresholdIsStrict | src/cache/redis_database.py:23-26 | an average of exactly 10 stays in the regular tier; an average of 10.5 is promoted |
| CacheLevels.EmptyHotParamsFail | src/cache/redis_database.py:23 | with no tracked parameter, a request that is neither hot nor negatively cached fails with a division by zero |
| CacheLevels.RegularOtherwise | src/cache/redis_database.py:29-30 | every successful decision other than the hot-request, negative-cache and hot-parameter tiers is l2 for 60 |
| Lookups.TableName | src/lookups.py:18 | the table name is the domain behind the `lookup:` prefix, so the domain can be read back from it |
| Lookups.TableNameInjective | src/lookups.py:18 | distinct domains never share a table |
| Lookups.LookupUrl | src/lookups.py:10-13 | only the two genre tables have a source; the anime table is filled from the manga genre list and the manga table from the anime one, never from its own kind's list |
| Lookups.Lookup | src/lookups.py:7-38 | a lookup makes at most one upstream call, none when the table exists; a successful result is read from the table as it is left; every other hash and every other key's TTL is left exactly as it was, and no field already present in the table changes |
| Lookups.PopulatedKeepsFields | src/lookups.py:25-30 | population adds to one table only: every other hash is left exactly as it was, and no field the table already has changes |
| Lookups.Resolve | src/lookups.py:33-36 | resolution succeeds if and only if every lower-cased label is in the table; the ids are then those labels' entries, in order; otherwise it fails naming the first label that is missing |
| Lookups.InsertAllKeepsExisting | src/lookups.py:25-30 | population never overwrites a field the table already has |
| Lookups.InsertAllKeys | src/lookups.py:25-30 | after population the table's fields are the old ones plus every entry's lower-cased name |
| Lookups.InsertAllFirstWins | src/lookups.py:25-30 | among entries whose names collide after lower-casing, the first entry's id is the one stored |
| Lookups.Populate | src/lookups.py:25-30 | the population loop leaves the table as the in-order insert-if-absent of every entry, with the 10000 TTL set once there was an entry |
| Lookups.ResolveLabels | src/lookups.py:33-38 | the resolution loop returns exactly `Resolve` of the table and the labels, and reads the store only |
| Lookups.ParamsIdLookup | src/lookups.py:7-38 | the method's result, tables, TTLs and upstream calls are those of `Lookup`; an existing table is used without any upstream call or write; a missing table with no URL fails untouched; otherwise exactly one enumeration call, whose failure changes nothing and whose success populates the table before resolving |
| Lookups.LookupTwice | src/lookups.py:19-20 | the calls after the first lookup are exactly those that lookup makes (at most one); once it has succeeded on non-empty labels, repeating it returns the same ids and adds no upstream call |
| Collapser.RequestCollapser.Begin | src/request_handlers.py:23-33 | the caller is the creator if and only if the name was not pending; a creator registers a new unresolved future, and a joiner gets the pending one with the map unchanged |
| Collapser.RequestCollapser.Finish | src/request_handlers.py:37-45 | the outcome, result or error, is published on the future and the name is no longer pending |
| Collapser.SharedFlight | src/request_handlers.py:19-48 | among any number of callers for one name there is exactly one creator; all hold the same future and see its one outcome; afterwards the name is no longer pending |
| RequestHandlers.BumpedStep | src/request_handlers.py:99-105 | bumping one more, not yet bumped counter starts from its value before the loop |
| RequestHandlers.ExpiredStep | src/request_handlers.py:104 | expiring one more counter extends the set of keys carrying the window TTL by that key |
| RequestHandlers.CounterKeysStep | src/request_handlers.py:101 | one more `hot_params` entry adds exactly its counter key |
| RequestHandlers.TrackedNamesStep | src/request_handlers.py:99-102 | visiting a tracked name adds its `hot_params` entry exactly when the parameter is present |
| RequestHandlers.PrioritiesDifferAtFirstChar | src/request_handlers.py:96 | the five tracked parameter names differ in their first letter |
| RequestHandlers.HotNamesDistinct | src/request_handlers.py:99-105 | different tracked parameters never share a `hot_params` entry or a counter, so no counter is bumped twice per request |
| RequestHandlers.CacheKeysDistinct | src/request_handlers.py:112-130 | the l1 and l2 keys of one request differ |
| RequestHandlers.CounterFamiliesDistinct | src/request_handlers.py:86-101 | the request counter and the parameter counters never share a key |
| RequestHandlers.ApplyGenres | src/request_handlers.py:72-75 | a lookup failure propagates; with ids, only `genres` changes, to their comma join, and every other parameter is kept; with no ids the parameters are returned unchanged |
| RequestHandlers.GenreLookup | src/request_handlers.py:70-73 | without genre labels there is no lookup (no ids, no write, no call); with them, at most one upstream call and, on success, one id per label |
| RequestHandlers.ResolveGenres | src/request_handlers.py:69-75 | the parameters become `ApplyGenres` of the `genres:anime` lookup's result, and the tables, TTLs and calls are the lookup's; without genre labels nothing is called or written; with them, success replaces the labels by the comma-joined ids `Resolve` gives on the lookup table |
| RequestHandlers.BumpRequest | src/request_handlers.py:86-91 | the request count goes up by one, and the window TTL is set only when the count has just become 1 |
| RequestHandlers.BumpedSoFarStep | src/request_handlers.py:99-105 | one turn of the parameter loop on a present parameter keeps the loop's account: one more counter bumped from its old value, expired, and recorded |
| RequestHandlers.CountersStep | src/request_handlers.py:103 | after one more, not yet bumped, counter is bumped, the counters are the loop's start values bumped once on every recorded entry's counter |
| RequestHandlers.TtlsStep | src/request_handlers.py:104 | after one more counter is expired, exactly the recorded entries' counters carry the window TTL |
| RequestHandlers.HotKeysStep | src/request_handlers.py:105 | recording a present parameter makes the `hot_params` names those of the present tracked parameters visited so far |
| RequestHandlers.BumpedSoFarSkip | src/request_handlers.py:100-102 | visiting an absent tracked parameter keeps the loop's account unchanged |
| RequestHandlers.BumpedSoFarStart | src/request_handlers.py:98 | before the loop, nothing is recorded and no counter or TTL has changed |
| RequestHandlers.BumpParam | src/request_handlers.py:100-105 | one turn of the parameter loop keeps that account, for a present or an absent parameter |
| RequestHandlers.BumpParams | src/request_handlers.py:96-105 | `hot_params` has one entry per present tracked parameter, each holding its counter's old value plus one; exactly those counters are bumped and given the 60 TTL |
| RequestHandlers.NotYetCounted | src/request_handlers.py:99-105 | a tracked parameter not yet visited has neither an entry nor a bumped counter |
| RequestHandlers.Probe | src/request_handlers.py:112-132 | a hit comes from the first tier holding the request's key, and l2 is consulted only when l1 holds nothing; a miss means neither tier holds it |
| RequestHandlers.L1HitIgnoresL2 | src/request_handlers.py:112-124 | with an l1 hit, whatever l2 holds or lacks, the answer is the same |
| RequestHandlers.Retier | src/request_handlers.py:116-124 | a hit is classified without a response; the value is `SETNX`-copied to the chosen tier, whose TTL is reset, and returned; a failing classification writes nothing |
| RequestHandlers.FetchOutcome | src/request_handlers.py:150-171 | the fetch yields the body only when the response passed the status check and the classification succeeded, and then the body unchanged; a failed status check propagates its error, and otherwise a failed classification propagates its own |
| RequestHandlers.CacheWrite | src/request_handlers.py:119-122 | a cache write touches only the request's own tier keys and never overwrites a cached value; without a body or a level it writes nothing |
| RequestHandlers.ServeWrite | src/request_handlers.py:112-180 | serving a request touches only its own tier keys, values and TTLs alike, keeps every other TTL and never overwrites a cached value; joining a fetch in flight on a double miss writes nothing |
| RequestHandlers.FetchAndCache | src/request_handlers.py:150-178 | exactly one upstream call; a failed fetch or classification caches nothing; success stores the body (if absent) under the chosen tier with its TTL and returns it |
| RequestHandlers.CollapsedFetch | src/request_handlers.py:180 | the creator fetches once, publishes the outcome and makes `CacheWrite`'s write of the fetched body, leaving nothing pending; a joiner calls nothing, writes nothing and waits on the pending future |
| RequestHandlers.HotnessTtls | src/request_handlers.py:86-105 | after the hotness steps the request counter carries the window TTL only when it was just created, every parameter counter carries it afresh, and no other TTL changes |
| RequestHandlers.BumpHotness | src/request_handlers.py:86-105 | every counter, request and parameter, is bumped exactly once from its value before the request, and the TTLs are `HotnessTtls` of the old ones |
| RequestHandlers.Serve | src/request_handlers.py:112-180 | a cache hit is answered from the first tier holding it without an upstream call; a double miss fetches once or joins the fetch in flight; the cached values and TTLs become `ServeWrite` of the old ones |
| RequestHandlers.CountAndServe | src/request_handlers.py:78-180 | with the genres resolved: the request name is the crafted key, the hotness bookkeeping holds, the answer follows the hit, creator or joiner case, and the cache write is made over the TTLs the counting left |
| RequestHandlers.RecoRequestHandler | src/request_handlers.py:61-180 | the genre lookup, its effect on the parameters, tables, TTLs and calls; a failed resolution ends the request before any counter, cache write or fetch; otherwise the hotness bookkeeping, the answer without a fetch on a hit, the single collapsed fetch on a double miss, and the cache write over the TTLs left by the lookup and the counting all hold |

## Left out

- The asyncio lock and the interleaving of concurrent handlers are not modelled. The collapser's two locked sections are atomic steps, and `SharedFlight` sequences several callers between them.
- `await future` is not modelled. A joiner's reply is the pending future it would wait on.
- Real Redis and HTTP I/O are not modelled. The store is a class over maps, and the upstream client answers by a fixed function of (url, params).
- Store and network failures are not modelled, and neither are timeouts.
- TTLs are recorded but never count down, so window expiry is not modelled.
- `craft_key` (`src/tools/crafters.py`) is not part of this model. The request name takes it as a parameter.
- `json.dumps` / `json.loads` of cached values are modelled as the identity, so the cached body is the body itself.
- CacheLevels.Classify: the average is exact, not an IEEE double. Float rounding of very large totals is not captured.
- Types.Lower: only ASCII letters are lower-cased; Unicode case mapping is not modelled.
- Types.LabelsRepr: Python's `repr` of a label list is modelled without quote escaping.
- The set of registered failure codes (`Jikan.RegisteredFailureCodes`) follows `http.HTTPStatus` as of Python 3.9 and later; a code registered or withdrawn by another Python version is not tracked.
- The embedded `status` is modelled as an integer. A non-numeric embedded status, which would make the comparison raise, is not modelled.
- A `data` list that is not a list, and entries lacking `name` or `mal_id`, are not modelled. Every `data` value is a list of (name, id) items.
- The one store keyspace is held as separate maps for counters, cached values and hashes. A command on a key of the wrong type (which Redis rejects) is not modelled.
- `genres` in a validated request is always a list of labels (`src/data/schemas.py:102`). A textual `genres` value is passed through without resolution.
- Logging, the Pydantic schemas, the FastAPI application and the exception handlers are not modelled.
- `reco_request_handler` also accepts manga parameters, but it always queries `/anime` and resolves genres in `genres:anime`. The model's generic `Params` covers such a call, and nothing manga-specific exists to model.

=== FILE: cache_levels.dfy ===
/**
 * The cache-tier classifier of src/cache/redis_database.py: from the request
 * hotness, the per-parameter hotness counts and (on the fetch path) the
 * upstream response, choose the cache layer, its TTL and a description.
 */
module CacheLevels {
  import opened Types

  datatype Layer = L1 | L2

  /** The `description` the classifier attaches to its choice. */
  datatype Reason = HotRequest | NegativeCache | HotParams | RegularCache

  datatype CacheLevel = CacheLevel(layer: Layer, ttl: nat, description: Reason)

  /** The key prefix of a layer: cached values live under `"<layer>:" + request name`. */
  function LayerName(l: Layer): string {
    match l
    case L1 => "l1"
    case L2 => "l2"
  }

  /** Some key of a non-empty dictionary; which one does not matter to `Total`. */
  ghost function Pick(m: map<string, int>): (k: string)
    requires m != map[]
    ensures k in m
  {
    var k :| k in m; k
  }

  /** The sum of a dictionary's values, `sum(hot_params.values())`. */
  ghost function Total(m: map<string, int>): int
    decreases |m|
  {
    if m == map[] then 0
    else
      var k := Pick(m);
      assert |m - {k}| < |m| by { assert (m - {k}).Keys == m.Keys - {k}; }
      m[k] + Total(m - {k})
  }

  /** The total does not depend on which key is taken out first. */
  lemma {:induction false} TotalRemove(m: map<string, int>, k: string)
    requires k in m
    ensures Total(m) == m[k] + Total(m - {k})
    decreases |m|
  {
    var p := Pick(m);
    assert (m - {p}).Keys == m.Keys - {p};
    if p != k {
      assert k in m - {p};
      TotalRemove(m - {p}, k);
      assert (m - {k}).Keys == m.Keys - {k};
      assert p in m - {k};
      TotalRemove(m - {k}, p);
      assert (m - {p}) - {k} == (m - {k}) - {p};
    }
  }

  /**
   * The decision cascade of `get_cache_level`, with the average computed
   * exactly (`total / len(hot_params)` as a real number). `response` is
   * `None` on the cache-hit paths, which call the classifier without one.
   */
  ghost function Classify(hotParams: map<string, int>, requestHotness: int, response: Option<Body>): (r: Result<CacheLevel>)
    ensures r.Ok? ==> (r.value.layer == L1 <==> r.value.ttl in {120, 150})
    ensures r.Ok? ==> (r.value.layer == L2 <==> r.value.ttl == 60)
  {
    if requestHotness > 5 then Ok(CacheLevel(L1, 120, HotRequest))
    else if response.Some? && Data(response.value).Err? then Err(Data(response.value).error)
    else if response.Some? && |Data(response.value).value| == 0 then Ok(CacheLevel(L2, 60, NegativeCache))
    else if |hotParams| == 0 then Err(ZeroDivision)
    else if AboveTen(Total(hotParams), |hotParams|) then Ok(CacheLevel(L1, 150, HotParams))
    else Ok(CacheLevel(L2, 60, RegularCache))
  }

  /** `total / len(hot_params) > 10`, with the division exact. */
  predicate AboveTen(total: int, count: nat)
    requires count > 0
  {
    (total as real) / (count as real) > 10.0
  }

  /**
   * `get_cache_level`: the hotness checks, then the summing loop over the
   * dictionary's values and the average test.
   */
  method GetCacheLevel(hotParams: map<string, int>, requestHotness: int, response: Option<Body>)
    returns (r: Result<CacheLevel>)
    ensures r == Classify(hotParams, requestHotness, response)
  {
    if requestHotness > 5 {
      return Ok(CacheLevel(L1, 120, HotRequest));
    }
    if response.Some? {
      var data := Data(response.value);
      if data.Err? {
        return Err(data.error);
      }
      if |data.value| == 0 {
        return Ok(CacheLevel(L2, 60, NegativeCache));
      }
    }
    var total := 0;
    var rest := hotParams;
    while rest != map[]
      invariant total + Total(rest) == Total(hotParams)
      decreases |rest|
    {
      var k :| k in rest;
      TotalRemove(rest, k);
      total := total + rest[k];
      assert (rest - {k}).Keys == rest.Keys - {k};
      rest := rest - {k};
    }
    if |hotParams| == 0 {
      return Err(ZeroDivision);
    }
    if AboveTen(total, |hotParams|) {
      return Ok(CacheLevel(L1, 150, HotParams));
    }
    return Ok(CacheLevel(L2, 60, RegularCache));
  }

  // ---------------------------------------------------------------------
  // Properties of the cascade
  // ---------------------------------------------------------------------

  /** A request seen more than five times in its window is cached in l1 for 120, whatever else holds. */
  lemma HotRequestWins(hotParams: map<string, int>, requestHotness: int, response: Option<Body>)
    requires requestHotness > 5
    ensures Classify(hotParams, requestHotness, response) == Ok(CacheLevel(L1, 120, HotRequest))
  {
  }

  /**
   * A non-hot request whose response has an empty `data` list is negatively
   * cached in l2 for 60; without a response that branch is never taken.
   */
  lemma NegativeCacheOnlyWithEmptyResponse(hotParams: map<string, int>, requestHotness: int, response: Option<Body>)
    ensures Classify(hotParams, requestHotness, response) == Ok(CacheLevel(L2, 60, NegativeCache))
            <==> requestHotness <= 5 && response.Some? && Data(response.value) == Ok([])
  {
  }

  /**
   * A response whose `data` list is non-empty changes nothing: the fetch
   * path then classifies exactly as the cache-hit paths do.
   */
  lemma NonEmptyResponseIrrelevant(hotParams: map<string, int>, requestHotness: int, b: Body)
    requires Data(b).Ok? && |Data(b).value| > 0
    ensures Classify(hotParams, requestHotness, Some(b)) == Classify(hotParams, requestHotness, None)
  {
  }

  /**
   * Past the first two checks, with at least one tracked parameter, the
   * decision is one of two: l1 for 150 exactly when the average hotness is
   * above 10, otherwise l2 for 60.
   */
  lemma HotParamsThreshold(hotParams: map<string, int>, requestHotness: int, response: Option<Body>)
    requires requestHotness <= 5
    requires response.Some? ==> Data(response.value).Ok? && |Data(response.value).value| > 0
    requires hotParams != map[]
    ensures Classify(hotParams, requestHotness, response) == Ok(CacheLevel(L1, 150, HotParams))
            <==> AboveTen(Total(hotParams), |hotParams|)
    ensures Classify(hotParams, requestHotness, response) == Ok(CacheLevel(L2, 60, RegularCache))
            <==> !AboveTen(Total(hotParams), |hotParams|)
  {
  }

  /** The sum over two tracked parameters. */
  lemma TotalOfTwo(a: string, x: int, b: string, y: int)
    requires a != b
    ensures |map[a := x, b := y]| == 2
    ensures Total(map[a := x, b := y]) == x + y
  {
    var m := map[a := x, b := y];
    assert m.Keys == {a, b};
    TotalRemove(m, a);
    assert m - {a} == map[b := y];
    TotalRemove(map[b := y], b);
    assert map[b := y] - {b} == map[];
  }

  /** The hot-parameter test on concrete numbers: an average of exactly 10 is not hot, 10.5 is. */
  lemma AverageThresholdIsStrict(requestHotness: int)
    requires requestHotness <= 5
    ensures Classify(map["status:airing" := 10, "order_by:score" := 10], requestHotness, None) == Ok(CacheLevel(L2, 60, RegularCache))
    ensures Classify(map["status:airing" := 10, "order_by:score" := 11], requestHotness, None) == Ok(CacheLevel(L1, 150, HotParams))
  {
    assert "status:airing"[0] != "order_by:score"[0];
    TotalOfTwo("status:airing", 10, "order_by:score", 10);
    TotalOfTwo("status:airing", 10, "order_by:score", 11);
    assert !AboveTen(20, 2) && AboveTen(21, 2);
  }

  /**
   * With no tracked parameter, a request that is neither hot nor negatively
   * cached reaches the average over an empty dictionary and fails.
   */
  lemma EmptyHotParamsFail(requestHotness: int, response: Option<Body>)
    requires requestHotness <= 5
    requires response.Some? ==> Data(response.value).Ok? && |Data(response.value).value| > 0
    ensures Classify(map[], requestHotness, response) == Err(ZeroDivision)
  {
  }

  /** Every outcome other than those above is the regular l2 tier for 60. */
  lemma RegularOtherwise(hotParams: map<string, int>, requestHotness: int, response: Option<Body>)
    requires Classify(hotParams, requestHotness, response).Ok?
    requires Classify(hotParams, requestHotness, response).value.description !in {HotRequest, NegativeCache, HotParams}
    ensures Classify(hotParams, requestHotness, response) == Ok(CacheLevel(L2, 60, RegularCache))
  {
  }
}

=== FILE: collapser.dfy ===
/**
 * `RequestCollapser` of src/request_handlers.py: the pending map that lets
 * one caller per request name perform the upstream fetch while later
 * callers for the same name wait on the same future. The lock-protected
 * sections of `run` are the two steps `Begin` (register or join) and
 * `Finish` (publish the outcome, drop the entry).
 */
module Collapser {
  import opened Types

  /** An asyncio future: unresolved until its creator publishes a result or an exception. */
  class Future {
    var outcome: Option<Result<Body>>

    constructor ()
      ensures outcome == None
    {
      outcome := None;
    }
  }

  class RequestCollapser {
    var pendings: map<string, Future>

    /**
     * Every pending future is still unresolved, and no future is pending
     * under two names.
     */
    ghost predicate Valid()
      reads this, pendings.Values
    {
      && (forall k | k in pendings :: pendings[k].outcome == None)
      && (forall k1, k2 | k1 in pendings && k2 in pendings && pendings[k1] == pendings[k2] :: k1 == k2)
    }

    constructor ()
      ensures Valid() && pendings == map[]
    {
      pendings := map[];
    }

    /**
     * The first locked section of `run`: a caller whose request name is not
     * pending registers a new future and becomes its creator; any other
     * caller joins the pending future and the map stays as it is.
     */
    method Begin(requestName: string) returns (f: Future, creator: bool)
      requires Valid()
      modifies this
      ensures Valid()
      ensures creator <==> requestName !in old(pendings)
      ensures f.outcome == None
      ensures creator ==> fresh(f) && pendings == old(pendings)[requestName := f]
      ensures creator ==> forall k | k in pendings && pendings[k] == f :: k == requestName
      ensures !creator ==> f == old(pendings[requestName]) && pendings == old(pendings)
    {
      if requestName !in pendings {
        f := new Future();
        pendings := pendings[requestName := f];
        creator := true;
      } else {
        f := pendings[requestName];
        creator := false;
      }
    }

    /**
     * The creator's tail of `run`: publish the fetch's result or exception
     * on the future, then `pendings.pop(request_name, None)`, which removes
     * the entry whether the fetch succeeded or failed and does nothing when
     * it is already gone.
     */
    method Finish(requestName: string, f: Future, outcome: Result<Body>)
      requires Valid()
      requires f.outcome == None
      requires forall k | k in pendings && pendings[k] == f :: k == requestName
      modifies this, f
      ensures Valid()
      ensures f.outcome == Some(outcome)
      ensures pendings == old(pendings) - {requestName}
    {
      f.outcome := Some(outcome);
      pendings := pendings - {requestName};
    }
  }

  /** Registering a name that was not pending and then removing it restores the map. */
  lemma RegisterThenRemove(pendings: map<string, Future>, requestName: string, f: Future)
    requires requestName !in pendings
    ensures pendings[requestName := f] - {requestName} == pendings
  {
  }

  /**
   * `n` further callers arrive for a request name while its first caller's
   * fetch is in flight: exactly one caller is the creator, every caller holds
   * the same future and so receives the creator's result or exception, and
   * once it is published the name is no longer pending, so the next call
   * starts a fresh fetch.
   */
  method SharedFlight(c: RequestCollapser, requestName: string, n: nat, outcome: Result<Body>)
    returns (futures: seq<Future>, creators: int)
    requires c.Valid()
    requires requestName !in c.pendings
    modifies c
    ensures c.Valid()
    ensures creators == 1
    ensures |futures| == n + 1
    ensures forall i | 0 <= i < |futures| :: futures[i] == futures[0] && futures[i].outcome == Some(outcome)
    ensures c.pendings == old(c.pendings)
  {
    var first, isCreator := c.Begin(requestName);
    futures := [first];
    creators := if isCreator then 1 else 0;
    var i := 0;
    while i < n
      invariant 0 <= i <= n
      invariant c.Valid()
      invariant c.pendings == old(c.pendings)[requestName := first]
      invariant first.outcome == None
      invariant creators == 1
      invariant |futures| == i + 1
      invariant forall j | 0 <= j < |futures| :: futures[j] == first
    {
      var f, joinedAsCreator := c.Begin(requestName);
      if joinedAsCreator {
        creators := creators + 1;
      }
      futures := futures + [f];
      i := i + 1;
    }
    c.Finish(requestName, first, outcome);
    RegisterThenRemove(old(c.pendings), requestName, first);
  }
}

=== FILE: jikan.dfy ===
/**
 * The upstream call of src/jikan.py. The HTTP client is a collaborator whose
 * answers are a fixed function of (url, params); it keeps a log of the calls
 * made to it so that callers can state when the upstream is, or is not,
 * contacted. `CheckResponse` is the status classification `fetch_jikan`
 * applies to what the client returns.
 */
module Jikan {
  import opened Types

  /** The upstream HTTP client. `calls` records every GET, in order. */
  class Client {
    const respond: (string, Params) -> Response
    ghost var calls: seq<(string, Params)>

    constructor (respond: (string, Params) -> Response)
      ensures this.respond == respond && calls == []
    {
      this.respond := respond;
      calls := [];
    }

    /** `client.get(url=url, params=params)`. */
    method Get(url: string, params: Params) returns (resp: Response)
      modifies this`calls
      ensures resp == respond(url, params)
      ensures calls == old(calls) + [(url, params)]
    {
      resp := respond(url, params);
      calls := calls + [(url, params)];
    }
  }

  predicate Is2xx(code: int) {
    200 <= code <= 299
  }

  /**
   * The failure codes (400 and above) that Python's `http.HTTPStatus`
   * registers. `HTTPException(status_code=code)` without a `detail` looks up
   * the code's phrase there and raises `ValueError` for any other code.
   */
  const RegisteredFailureCodes: set<int> := {
    400, 401, 402, 403, 404, 405, 406, 407, 408, 409, 410, 411, 412, 413, 414, 415, 416, 417, 418,
    421, 422, 423, 424, 425, 426, 428, 429, 431, 451,
    500, 501, 502, 503, 504, 505, 506, 507, 508, 510, 511}

  /** True when a decoded body is an object whose embedded `status` reports a failure. */
  predicate EmbeddedFailure(b: Body) {
    b.Object? && b.status.Some? && b.status.value >= 400
  }

  /**
   * What `fetch_jikan` does with a response: decode the body (a non-JSON
   * body raises first), `raise_for_status` (any non-2xx code), then the
   * embedded `status` check, whose exception is built without a `detail` and
   * so fails with `InvalidStatus` on a code `http.HTTPStatus` does not
   * register; otherwise the response is returned as it is.
   */
  function CheckResponse(resp: Response): (r: Result<Response>)
    ensures r.Ok? ==> r.value == resp && Is2xx(resp.code) && !EmbeddedFailure(resp.body)
    ensures r.Err? && r.error.HttpError? ==> !Is2xx(r.error.status) || r.error.status in RegisteredFailureCodes
    ensures r.Err? && r.error.InvalidStatus? ==>
      EmbeddedFailure(resp.body) && r.error.status == resp.body.status.value && r.error.status !in RegisteredFailureCodes
  {
    if resp.body.Malformed? then Err(DecodeError)
    else if !Is2xx(resp.code) then Err(HttpError(resp.code))
    else if EmbeddedFailure(resp.body) then
      var status := resp.body.status.value;
      if status in RegisteredFailureCodes then Err(HttpError(status)) else Err(InvalidStatus(status))
    else Ok(resp)
  }

  /** `fetch_jikan(request_url, client, params)`: one GET, then `CheckResponse`. */
  method FetchJikan(client: Client, url: string, params: Params) returns (r: Result<Response>)
    modifies client`calls
    ensures client.calls == old(client.calls) + [(url, params)]
    ensures r == CheckResponse(client.respond(url, params))
  {
    var resp := client.Get(url, params);
    r := CheckResponse(resp);
  }

  // ---------------------------------------------------------------------
  // Properties of the status classification
  // ---------------------------------------------------------------------

  /** A non-2xx HTTP status fails with that same code, whatever the body says. */
  lemma HttpStatusFirst(resp: Response)
    requires !resp.body.Malformed? && !Is2xx(resp.code)
    ensures CheckResponse(resp) == Err(HttpError(resp.code))
  {
  }

  /** A 2xx response whose object body embeds a registered failure code fails with that code. */
  lemma EmbeddedStatusFails(resp: Response, status: int, data: Option<seq<Item>>)
    requires Is2xx(resp.code) && resp.body == Object(Some(status), data) && status in RegisteredFailureCodes
    ensures CheckResponse(resp) == Err(HttpError(status))
  {
  }

  /**
   * A 2xx response whose object body embeds an unregistered code of 400 or
   * more (419, 499, 1000, ...) fails while the exception is being built.
   */
  lemma UnregisteredStatusFails(resp: Response, status: int, data: Option<seq<Item>>)
    requires Is2xx(resp.code) && resp.body == Object(Some(status), data) && status >= 400
    requires status !in RegisteredFailureCodes
    ensures CheckResponse(resp) == Err(InvalidStatus(status))
  {
  }

  /**
   * A 2xx JSON response passes unchanged exactly when its body is not an
   * object embedding a failing status: no `status` member, a status below
   * 400, or a body that is not an object at all.
   */
  lemma SuccessPassesThrough(resp: Response)
    requires Is2xx(resp.code) && !resp.body.Malformed?
    ensures CheckResponse(resp) == Ok(resp) <==>
            resp.body.NonObject? || resp.body.status.None? || resp.body.status.value < 400
  {
  }

  /** A body that is not JSON fails to decode before any status is looked at. */
  lemma DecodeFirst(code: int)
    ensures CheckResponse(Response(code, Malformed)) == Err(DecodeError)
  {
  }
}

=== FILE: key_value.dfy ===
/**
 * The shared key-value store the gateway talks to (Redis), reduced to the
 * commands the core uses. One keyspace is held as three maps by value kind
 * (integer counters, cached JSON values, hash tables) plus the TTL set on a
 * key; the gateway's key prefixes keep the three kinds apart. TTLs are
 * recorded, never counted down.
 */
module KeyValue {
  import opened Types

  /** The fields of hash `name` in a keyspace; a missing hash reads as empty (as `HGET` sees it). */
  function HashOf(hashes: map<string, map<string, int>>, name: string): map<string, int> {
    if name in hashes then hashes[name] else map[]
  }

  /** `INCR`'s view of a counter: its value, 0 when absent. */
  function CountOf(counters: map<string, int>, key: string): int {
    if key in counters then counters[key] else 0
  }

  /** Whether `key` exists in a keyspace held as its three maps. */
  predicate Present(counters: map<string, int>, values: map<string, Body>, hashes: map<string, map<string, int>>, key: string) {
    key in counters || key in values || key in hashes
  }

  class Store {
    var counters: map<string, int>
    var values: map<string, Body>
    var hashes: map<string, map<string, int>>
    var ttls: map<string, nat>

    /** Only a key that exists can carry a TTL. */
    ghost predicate Valid()
      reads this
    {
      ttls.Keys <= counters.Keys + values.Keys + hashes.Keys
    }

    /**
     * `EXISTS key`: a key that does not exist reads as absent to every
     * command (`GET` finds nothing, `INCR` starts from 0, `HGET` finds no
     * field), and a key that carries a TTL exists.
     */
    predicate Exists(key: string)
      reads this
      ensures !Exists(key) ==> Get(key) == None && Count(key) == 0 && Hash(key) == map[]
      ensures Valid() && key in ttls ==> Exists(key)
    {
      Present(counters, values, hashes, key)
    }

    constructor ()
      ensures Valid()
      ensures counters == map[] && values == map[] && hashes == map[] && ttls == map[]
    {
      counters, values, hashes, ttls := map[], map[], map[], map[];
    }

    /** The counter under `key`, 0 when absent. */
    function Count(key: string): int
      reads this
    {
      CountOf(counters, key)
    }

    /** `INCR key`: an absent counter starts from 0; the TTL is left alone. */
    method Incr(key: string) returns (n: int)
      requires Valid()
      modifies this`counters
      ensures Valid()
      ensures n == old(Count(key)) + 1
      ensures counters == old(counters)[key := n]
    {
      n := Count(key) + 1;
      counters := counters[key := n];
    }

    /** `EXPIRE key seconds`: sets the TTL of an existing key; does nothing on a missing one. */
    method Expire(key: string, seconds: nat) returns (ok: bool)
      requires Valid()
      modifies this`ttls
      ensures Valid()
      ensures ok == Exists(key)
      ensures ttls == if ok then old(ttls)[key := seconds] else old(ttls)
    {
      ok := Exists(key);
      if ok {
        ttls := ttls[key := seconds];
      }
    }

    /** `GET key` on a cached value. */
    function Get(key: string): Option<Body>
      reads this
    {
      if key in values then Some(values[key]) else None
    }

    /** `SETNX key value`: stores the value only when the key does not exist. */
    method SetNx(key: string, v: Body) returns (stored: bool)
      requires Valid()
      modifies this`values
      ensures Valid()
      ensures stored == !old(Exists(key))
      ensures values == if stored then old(values)[key := v] else old(values)
      ensures Exists(key)
      ensures Get(key) == if stored then Some(v) else old(Get(key))
    {
      stored := !Exists(key);
      if stored {
        values := values[key := v];
      }
    }

    /** The fields of hash `name`; a missing hash reads as empty. */
    function Hash(name: string): map<string, int>
      reads this
    {
      HashOf(hashes, name)
    }

    /** `HSETNX name field value`: adds the field only when it is absent; creates the hash if needed. */
    method HSetNx(name: string, field: string, v: int) returns (stored: bool)
      requires Valid()
      modifies this`hashes
      ensures Valid()
      ensures stored == (field !in old(Hash(name)))
      ensures hashes == if stored then old(hashes)[name := old(Hash(name))[field := v]] else old(hashes)
      ensures HGet(name, field) == if stored then Some(v) else old(HGet(name, field))
      ensures HGet(name, field).Some?
    {
      stored := field !in Hash(name);
      if stored {
        hashes := hashes[name := Hash(name)[field := v]];
      }
    }

    /** `HGET name field`. */
    function HGet(name: string, field: string): Option<int>
      reads this
    {
      if field in Hash(name) then Some(Hash(name)[field]) else None
    }
  }
}

=== FILE: lookups.dfy ===
/**
 * The genre lookup of src/lookups.py: a per-domain hash table in the store,
 * filled once from the upstream genre enumeration (insert-if-absent under
 * the lower-cased name), then used to turn genre labels into upstream ids.
 */
module Lookups {
  import opened Types
  import opened Jikan
  import opened KeyValue

  /** The TTL set on a lookup table after each insertion. */
  const TableTtl: nat := 10000

  /** `f"lookup:{lookup_name}"`: the domain name stays recoverable behind the `lookup:` prefix. */
  function TableName(lookupName: string): (r: string)
    ensures |r| == |lookupName| + 7 && r[..7] == "lookup:" && r[7..] == lookupName
  {
    "lookup:" + lookupName
  }

  /** Distinct domains never share a table. */
  lemma TableNameInjective(a: string, b: string)
    requires TableName(a) == TableName(b)
    ensures a == b
  {
    assert a == TableName(a)[7..];
  }

  /** The upstream genre enumeration of one media kind. */
  function GenresUrl(kind: string): string {
    "https://api.jikan.moe/v4/genres/" + kind
  }

  /**
   * The `look_ups` dictionary, as written: only the two genre tables have a
   * source, and each is filled from the OTHER kind's enumeration.
   */
  function LookupUrl(table: string): (r: Option<string>)
    ensures r.Some? <==> table == TableName("genres:anime") || table == TableName("genres:manga")
    ensures table == TableName("genres:anime") ==> r == Some(GenresUrl("manga"))
    ensures table == TableName("genres:manga") ==> r == Some(GenresUrl("anime"))
    ensures r.Some? ==> r.value != GenresUrl(table[|"lookup:genres:"|..])
  {
    assert TableName("genres:anime")[14] != TableName("genres:manga")[14];
    assert GenresUrl("anime")[32] != GenresUrl("manga")[32];
    if table == TableName("genres:manga") then Some(GenresUrl("anime"))
    else if table == TableName("genres:anime") then Some(GenresUrl("manga"))
    else None
  }

  /** What one `hsetnx(table, name.lower(), mal_id)` does to the table's fields. */
  function InsertIfAbsent(h: map<string, int>, e: Item): map<string, int> {
    var k := Lower(e.name);
    if k in h then h else h[k := e.malId]
  }

  /** The table's fields after the insertion loop has run over `entries`, in order. */
  function InsertAll(h: map<string, int>, entries: seq<Item>): map<string, int>
    decreases |entries|
  {
    if entries == [] then h
    else InsertIfAbsent(InsertAll(h, entries[..|entries| - 1]), entries[|entries| - 1])
  }

  /** The store's hash tables after populating `table` from `entries`; an empty enumeration creates nothing. */
  function Populated(hashes: map<string, map<string, int>>, table: string, entries: seq<Item>): map<string, map<string, int>> {
    if entries == [] then hashes else hashes[table := InsertAll(HashOf(hashes, table), entries)]
  }

  /** The genre list `fetch_jikan(url).json()["data"]` yields for an upstream response, or the error raised. */
  function Enumeration(resp: Response): Result<seq<Item>> {
    match CheckResponse(resp)
    case Err(e) => Err(e)
    case Ok(checked) => Data(checked.body)
  }

  /**
   * The resolution loop: the id stored under each label's lower-cased form,
   * in input order, or a failure at the first label the table lacks.
   */
  function Resolve(table: map<string, int>, labels: seq<string>): (r: Result<seq<int>>)
    ensures r.Ok? <==> forall i | 0 <= i < |labels| :: Lower(labels[i]) in table
    ensures r.Ok? ==> |r.value| == |labels|
    ensures r.Ok? ==> forall i | 0 <= i < |labels| :: r.value[i] == table[Lower(labels[i])]
    ensures r.Err? ==> exists i | 0 <= i < |labels| ::
      && Lower(labels[i]) !in table
      && (forall j | 0 <= j < i :: Lower(labels[j]) in table)
      && r.error == UnresolvedLabel(labels[i])
    decreases |labels|
  {
    if labels == [] then Ok([])
    else if Lower(labels[0]) !in table then Err(UnresolvedLabel(labels[0]))
    else
      match Resolve(table, labels[1..])
      case Err(e) =>
        assert forall i | 1 <= i < |labels| :: labels[i] == labels[1..][i - 1];
        Err(e)
      case Ok(rest) => Ok([table[Lower(labels[0])]] + rest)
  }

  /** What one `paramsID_lookup` returns and leaves behind, and the upstream calls it makes. */
  datatype LookupOutcome = LookupOutcome(
    result: Result<seq<int>>,
    hashes: map<string, map<string, int>>,
    ttls: map<string, nat>,
    calls: seq<(string, Params)>)

  /**
   * `paramsID_lookup` as a function of the store's hash tables and TTLs,
   * whether the table exists, and the upstream's answers. At most one
   * upstream call is made, none when the table exists; a successful result
   * is read from the table as it is left; the only hash written is the
   * table, and no field already present is changed.
   */
  function Lookup(hashes: map<string, map<string, int>>, ttls: map<string, nat>, tableExists: bool,
                  respond: (string, Params) -> Response, labels: seq<string>, lookupName: string): (o: LookupOutcome)
    ensures |o.calls| <= 1 && (tableExists ==> o.calls == [])
    ensures o.result.Ok? ==> o.result == Resolve(HashOf(o.hashes, TableName(lookupName)), labels)
    ensures o.hashes.Keys <= hashes.Keys + {TableName(lookupName)}
    ensures o.ttls.Keys <= ttls.Keys + {TableName(lookupName)}
    ensures forall n, k | n in hashes && k in hashes[n] :: n in o.hashes && k in o.hashes[n] && o.hashes[n][k] == hashes[n][k]
    ensures forall n | n in hashes && n != TableName(lookupName) :: n in o.hashes && o.hashes[n] == hashes[n]
    ensures forall k | k in ttls && k != TableName(lookupName) :: k in o.ttls && o.ttls[k] == ttls[k]
  {
    var table := TableName(lookupName);
    if tableExists then
      LookupOutcome(Resolve(HashOf(hashes, table), labels), hashes, ttls, [])
    else if LookupUrl(table).None? then
      LookupOutcome(Err(UnknownTable(table)), hashes, ttls, [])
    else
      var url := LookupUrl(table).value;
      var fetched := Enumeration(respond(url, map[]));
      if fetched.Err? then
        LookupOutcome(Err(fetched.error), hashes, ttls, [(url, map[])])
      else
        var hashes' := Populated(hashes, table, fetched.value);
        PopulatedKeepsFields(hashes, table, fetched.value);
        LookupOutcome(Resolve(HashOf(hashes', table), labels), hashes',
                      if fetched.value == [] then ttls else ttls[table := TableTtl], [(url, map[])])
  }

  /** Population adds to one table and changes no field any table already has. */
  lemma PopulatedKeepsFields(hashes: map<string, map<string, int>>, table: string, entries: seq<Item>)
    ensures Populated(hashes, table, entries).Keys <= hashes.Keys + {table}
    ensures forall n | n in hashes && n != table :: n in Populated(hashes, table, entries) && Populated(hashes, table, entries)[n] == hashes[n]
    ensures forall n, k | n in hashes && k in hashes[n] ::
      n in Populated(hashes, table, entries) && k in Populated(hashes, table, entries)[n]
      && Populated(hashes, table, entries)[n][k] == hashes[n][k]
  {
    forall n, k | n in hashes && k in hashes[n] && n == table && entries != []
      ensures k in InsertAll(hashes[n], entries) && InsertAll(hashes[n], entries)[k] == hashes[n][k]
    {
      InsertAllKeepsExisting(hashes[n], entries, k);
    }
  }

  // ---------------------------------------------------------------------
  // Properties of population
  // ---------------------------------------------------------------------

  /** Population never overwrites a field the table already has. */
  lemma {:induction false} InsertAllKeepsExisting(h: map<string, int>, entries: seq<Item>, k: string)
    requires k in h
    ensures k in InsertAll(h, entries) && InsertAll(h, entries)[k] == h[k]
    decreases |entries|
  {
    if entries != [] {
      InsertAllKeepsExisting(h, entries[..|entries| - 1], k);
    }
  }

  /** After population the table's fields are the old ones plus every entry's lower-cased name. */
  lemma {:induction false} InsertAllKeys(h: map<string, int>, entries: seq<Item>)
    ensures InsertAll(h, entries).Keys == h.Keys + (set i | 0 <= i < |entries| :: Lower(entries[i].name))
    decreases |entries|
  {
    if entries != [] {
      var n := |entries| - 1;
      var front := entries[..n];
      InsertAllKeys(h, front);
      assert forall i | 0 <= i < n :: front[i] == entries[i];
      assert (set i | 0 <= i < |entries| :: Lower(entries[i].name))
          == (set i | 0 <= i < n :: Lower(front[i].name)) + {Lower(entries[n].name)};
    }
  }

  /** Among entries whose names collide after lower-casing, the first one's id is the one stored. */
  lemma {:induction false} InsertAllFirstWins(h: map<string, int>, entries: seq<Item>, i: nat)
    requires i < |entries|
    requires Lower(entries[i].name) !in h
    requires forall j | 0 <= j < i :: Lower(entries[j].name) != Lower(entries[i].name)
    ensures Lower(entries[i].name) in InsertAll(h, entries)
    ensures InsertAll(h, entries)[Lower(entries[i].name)] == entries[i].malId
    decreases |entries|
  {
    var n := |entries| - 1;
    var front := entries[..n];
    var k := Lower(entries[i].name);
    if i == n {
      InsertAllKeys(h, front);
      assert k !in InsertAll(h, front);
    } else {
      assert front[i] == entries[i];
      InsertAllFirstWins(h, front, i);
      InsertAllKeepsExisting(InsertAll(h, front), [entries[n]], k);
      assert InsertAll(InsertAll(h, front), [entries[n]]) == InsertAll(h, entries) by {
        assert [entries[n]][..0] == [];
      }
    }
  }

  // ---------------------------------------------------------------------
  // The two loops of `paramsID_lookup`, and the operation itself
  // ---------------------------------------------------------------------

  /** The population loop: `hsetnx` each entry under its lower-cased name, then `expire` the table. */
  method Populate(store: Store, table: string, entries: seq<Item>)
    requires store.Valid()
    modifies store`hashes, store`ttls
    ensures store.Valid()
    ensures store.hashes == Populated(old(store.hashes), table, entries)
    ensures store.ttls == if entries == [] then old(store.ttls) else old(store.ttls)[table := TableTtl]
  {
    var i := 0;
    while i < |entries|
      invariant 0 <= i <= |entries|
      invariant store.Valid()
      invariant store.hashes == Populated(old(store.hashes), table, entries[..i])
      invariant store.ttls == if i == 0 then old(store.ttls) else old(store.ttls)[table := TableTtl]
    {
      var e := entries[i];
      assert entries[..i + 1][..i] == entries[..i];
      ghost var base := HashOf(old(store.hashes), table);
      assert store.Hash(table) == if i == 0 then base else InsertAll(base, entries[..i]);
      assert InsertAll(base, entries[..i + 1]) == InsertIfAbsent(store.Hash(table), e);
      var _ := store.HSetNx(table, Lower(e.name), e.malId);
      assert store.hashes == old(store.hashes)[table := InsertAll(base, entries[..i + 1])];
      var _ := store.Expire(table, TableTtl);
      i := i + 1;
    }
    assert entries[..i] == entries;
  }

  /** The resolution loop: `hget` each lower-cased label and keep its id; reads the store only. */
  method ResolveLabels(store: Store, table: string, labels: seq<string>) returns (r: Result<seq<int>>)
    ensures r == Resolve(store.Hash(table), labels)
  {
    var ids := [];
    var i := 0;
    while i < |labels|
      invariant 0 <= i <= |labels|
      invariant |ids| == i
      invariant forall j | 0 <= j < i :: Lower(labels[j]) in store.Hash(table) && ids[j] == store.Hash(table)[Lower(labels[j])]
    {
      var id := store.HGet(table, Lower(labels[i]));
      if id.None? {
        r := Err(UnresolvedLabel(labels[i]));
        var expected := Resolve(store.Hash(table), labels);
        assert expected.Err?;
        var w :| 0 <= w < |labels| && Lower(labels[w]) !in store.Hash(table)
              && (forall j | 0 <= j < w :: Lower(labels[j]) in store.Hash(table))
              && expected.error == UnresolvedLabel(labels[w]);
        assert w == i;
        assert r == expected;
        return;
      }
      ids := ids + [id.value];
      i := i + 1;
    }
    var expected := Resolve(store.Hash(table), labels);
    assert expected.Ok? && |expected.value| == |ids|;
    assert forall j | 0 <= j < |ids| :: expected.value[j] == ids[j];
    assert expected.value == ids;
    r := Ok(ids);
  }

  /**
   * `paramsID_lookup(labels, lookup_name)`: when the table does not exist,
   * find its upstream URL, fetch the enumeration and populate the table;
   * then resolve every label against the table.
   */
  method ParamsIdLookup(store: Store, client: Client, labels: seq<string>, lookupName: string)
    returns (r: Result<seq<int>>)
    requires store.Valid()
    modifies store`hashes, store`ttls, client`calls
    ensures store.Valid()
    ensures var o := Lookup(old(store.hashes), old(store.ttls), old(store.Exists(TableName(lookupName))),
                            client.respond, labels, lookupName);
      r == o.result && store.hashes == o.hashes && store.ttls == o.ttls && client.calls == old(client.calls) + o.calls
    ensures r.Ok? ==> r == Resolve(store.Hash(TableName(lookupName)), labels)
    // an existing table is used as it is: no upstream call, no write
    ensures old(store.Exists(TableName(lookupName))) ==>
      && store.hashes == old(store.hashes) && store.ttls == old(store.ttls)
      && client.calls == old(client.calls)
      && r == Resolve(store.Hash(TableName(lookupName)), labels)
    // a missing table with no known URL fails before anything is fetched
    ensures !old(store.Exists(TableName(lookupName))) && LookupUrl(TableName(lookupName)).None? ==>
      && r == Err(UnknownTable(TableName(lookupName)))
      && store.hashes == old(store.hashes) && store.ttls == old(store.ttls)
      && client.calls == old(client.calls)
    // otherwise the enumeration is fetched once and, when it succeeds, populates the table
    ensures !old(store.Exists(TableName(lookupName))) && LookupUrl(TableName(lookupName)).Some? ==>
      var table := TableName(lookupName);
      var url := LookupUrl(table).value;
      var fetched := Enumeration(client.respond(url, map[]));
      && client.calls == old(client.calls) + [(url, map[])]
      && (fetched.Err? ==>
            r == Err(fetched.error) && store.hashes == old(store.hashes) && store.ttls == old(store.ttls))
      && (fetched.Ok? ==>
            && store.hashes == Populated(old(store.hashes), table, fetched.value)
            && store.ttls == (if fetched.value == [] then old(store.ttls) else old(store.ttls)[table := TableTtl])
            && r == Resolve(store.Hash(table), labels))
  {
    var table := TableName(lookupName);
    if !store.Exists(table) {
      var url := LookupUrl(table);
      if url.None? {
        return Err(UnknownTable(table));
      }
      var fetched := FetchJikan(client, url.value, map[]);
      if fetched.Err? {
        return Err(fetched.error);
      }
      var entries := Data(fetched.value.body);
      if entries.Err? {
        return Err(entries.error);
      }
      Populate(store, table, entries.value);
    }
    r := ResolveLabels(store, table, labels);
  }

  /**
   * Resolving the same labels twice: once the first call has succeeded on
   * a non-empty label list, the table exists, so the second call makes no
   * upstream request and returns the same ids.
   */
  method LookupTwice(store: Store, client: Client, labels: seq<string>, lookupName: string)
    returns (first: Result<seq<int>>, second: Result<seq<int>>, ghost callsBetween: seq<(string, Params)>)
    requires store.Valid()
    modifies store`hashes, store`ttls, client`calls
    ensures first.Ok? && labels != [] ==> second == first
    ensures callsBetween == old(client.calls)
      + Lookup(old(store.hashes), old(store.ttls), old(store.Exists(TableName(lookupName))),
               client.respond, labels, lookupName).calls
    ensures first.Ok? && labels != [] ==> client.calls == callsBetween
  {
    first := ParamsIdLookup(store, client, labels, lookupName);
    callsBetween := client.calls;
    if first.Ok? && labels != [] {
      assert Lower(labels[0]) in store.Hash(TableName(lookupName));
      assert store.Exists(TableName(lookupName));
    }
    second := ParamsIdLookup(store, client, labels, lookupName);
  }
}

=== FILE: request_handlers.dfy ===
/**
 * `reco_request_handler` of src/request_handlers.py: resolve genre labels,
 * name the request, bump the hotness counters, probe the l1 then the l2
 * cache, and on a double miss fetch through the request collapser and cache
 * the response in the tier the classifier picks.
 */
module RequestHandlers {
  import opened Types
  import opened CacheLevels
  import opened Jikan
  import opened KeyValue
  import opened Lookups
  import opened Collapser

  const JikanBaseUrl := "https://api.jikan.moe/v4"
  const RequestUrl := JikanBaseUrl + "/anime"

  /** The window of the request and parameter hotness counters. */
  const HotnessTtl: nat := 60

  /** The parameters whose values are tracked for hotness. */
  const CachePriorities: set<string> := {"status", "order_by", "genres", "type", "rating"}

  /** The lookup domain genre labels are resolved in. */
  const GenreDomain := "genres:anime"

  /** `f"{request_url}?{craft_key(parsed_params)}"`, with the key crafter supplied by the caller. */
  function RequestName(craftKey: Params -> string, params: Params): string {
    RequestUrl + "?" + craftKey(params)
  }

  /** `f"hot_request|{request_name}"`. */
  function HotnessKey(requestName: string): string {
    "hot_request|" + requestName
  }

  /** The `hot_params` entry name of one parameter: `f"{cp}:{v_priority}"`. */
  function HotParamName(cp: string, v: ParamValue): string {
    cp + ":" + Render(v)
  }

  /** The counter behind a `hot_params` entry: `f"param_hotness|anime|{cp}:{v_priority}"`. */
  function ParamCounterKey(hotName: string): string {
    "param_hotness|anime|" + hotName
  }

  /** `f"{layer}:{request_name}"`. */
  function CacheKey(layer: Layer, requestName: string): string {
    LayerName(layer) + ":" + requestName
  }

  /** The `hot_params` names of the tracked parameters present among `names`. */
  function TrackedNames(params: Params, names: set<string>): set<string> {
    set cp | cp in names && cp in CachePriorities && cp in params :: HotParamName(cp, params[cp])
  }

  /** The counters behind a set of `hot_params` names. */
  function CounterKeys(hotNames: set<string>): set<string> {
    set n | n in hotNames :: ParamCounterKey(n)
  }

  /** Counters after one `INCR` on each key of `keys`. */
  function Bumped(counters: map<string, int>, keys: set<string>): map<string, int> {
    map k | k in counters.Keys + keys :: if k in keys then CountOf(counters, k) + 1 else counters[k]
  }

  /** TTLs after one `EXPIRE key ttl` on each key of `keys`. */
  function Expired(ttls: map<string, nat>, keys: set<string>, ttl: nat): map<string, nat> {
    map k | k in ttls.Keys + keys :: if k in keys then ttl else ttls[k]
  }

  lemma BumpedStep(counters: map<string, int>, keys: set<string>, key: string)
    requires key !in keys
    ensures CountOf(Bumped(counters, keys), key) == CountOf(counters, key)
    ensures Bumped(counters, keys)[key := CountOf(counters, key) + 1] == Bumped(counters, keys + {key})
  {
  }

  lemma ExpiredStep(ttls: map<string, nat>, keys: set<string>, key: string, ttl: nat)
    ensures Expired(ttls, keys, ttl)[key := ttl] == Expired(ttls, keys + {key}, ttl)
  {
  }

  lemma CounterKeysStep(hotNames: set<string>, name: string)
    ensures CounterKeys(hotNames + {name}) == CounterKeys(hotNames) + {ParamCounterKey(name)}
  {
  }

  lemma TrackedNamesStep(params: Params, done: set<string>, cp: string)
    requires cp in CachePriorities
    ensures cp in params ==> TrackedNames(params, done + {cp}) == TrackedNames(params, done) + {HotParamName(cp, params[cp])}
    ensures cp !in params ==> TrackedNames(params, done + {cp}) == TrackedNames(params, done)
  {
  }

  /** The parameters' genre labels, when the handler would resolve them (`if genres:`). */
  predicate HasGenreLabels(params: Params) {
    "genres" in params && params["genres"].Labels? && |params["genres"].labels| > 0
  }

  // ---------------------------------------------------------------------
  // Key shapes
  // ---------------------------------------------------------------------

  /** The tracked parameter names differ in their first letter. */
  lemma PrioritiesDifferAtFirstChar(cp1: string, cp2: string)
    requires cp1 in CachePriorities && cp2 in CachePriorities && cp1 != cp2
    ensures |cp1| > 0 && |cp2| > 0 && cp1[0] != cp2[0]
  {
  }

  /** Different tracked parameters never share a `hot_params` entry or a counter. */
  lemma HotNamesDistinct(cp1: string, v1: ParamValue, cp2: string, v2: ParamValue)
    requires cp1 in CachePriorities && cp2 in CachePriorities && cp1 != cp2
    ensures HotParamName(cp1, v1) != HotParamName(cp2, v2)
    ensures ParamCounterKey(HotParamName(cp1, v1)) != ParamCounterKey(HotParamName(cp2, v2))
  {
    PrioritiesDifferAtFirstChar(cp1, cp2);
    var p := "param_hotness|anime|";
    assert HotParamName(cp1, v1)[0] == cp1[0];
    assert HotParamName(cp2, v2)[0] == cp2[0];
    assert ParamCounterKey(HotParamName(cp1, v1))[|p|] == cp1[0];
    assert ParamCounterKey(HotParamName(cp2, v2))[|p|] == cp2[0];
  }

  /** The two cache tiers of one request never share a key. */
  lemma CacheKeysDistinct(requestName: string)
    ensures CacheKey(L1, requestName) != CacheKey(L2, requestName)
  {
    assert CacheKey(L1, requestName)[1] == '1';
    assert CacheKey(L2, requestName)[1] == '2';
  }

  // ---------------------------------------------------------------------
  // The steps of the handler
  // ---------------------------------------------------------------------

  /**
   * What genre resolution makes of the parameters given the lookup's
   * outcome: a failure propagates; otherwise only `genres` may change, to
   * the comma-joined ids when there are any.
   */
  function ApplyGenres(params: Params, ids: Result<seq<int>>): (r: Result<Params>)
    ensures r.Err? <==> ids.Err?
    ensures r.Err? ==> r.error == ids.error
    ensures r.Ok? ==> r.value.Keys == params.Keys + (if |ids.value| > 0 then {"genres"} else {})
    ensures r.Ok? ==> forall k | k in params && k != "genres" :: r.value[k] == params[k]
    ensures r.Ok? && |ids.value| > 0 ==> r.value["genres"] == Text(JoinIds(ids.value))
    ensures r.Ok? && |ids.value| == 0 ==> r.value == params
  {
    if ids.Err? then Err(ids.error)
    else if |ids.value| > 0 then Ok(params["genres" := Text(JoinIds(ids.value))])
    else Ok(params)
  }

  /**
   * The `genres:anime` lookup the handler performs: the lookup of the genre
   * labels when there are any, otherwise nothing (no ids, no write, no call).
   */
  function GenreLookup(hashes: map<string, map<string, int>>, ttls: map<string, nat>, tableExists: bool,
                       respond: (string, Params) -> Response, params: Params): (o: LookupOutcome)
    ensures !HasGenreLabels(params) ==> o == LookupOutcome(Ok([]), hashes, ttls, [])
    ensures |o.calls| <= 1 && (tableExists ==> o.calls == [])
    ensures o.result.Ok? && HasGenreLabels(params) ==> |o.result.value| == |params["genres"].labels| > 0
  {
    if HasGenreLabels(params) then Lookup(hashes, ttls, tableExists, respond, params["genres"].labels, GenreDomain)
    else LookupOutcome(Ok([]), hashes, ttls, [])
  }

  /**
   * Genre resolution (`if genres:`): non-empty genre labels are replaced by
   * the comma-joined ids from the `genres:anime` lookup; a lookup failure
   * propagates; without labels nothing happens.
   */
  method ResolveGenres(store: Store, client: Client, params: Params) returns (r: Result<Params>)
    requires store.Valid()
    modifies store`hashes, store`ttls, client`calls
    ensures store.Valid()
    ensures var o := GenreLookup(old(store.hashes), old(store.ttls), old(store.Exists(TableName(GenreDomain))),
                                 client.respond, params);
      && r == ApplyGenres(params, o.result)
      && store.hashes == o.hashes && store.ttls == o.ttls
      && client.calls == old(client.calls) + o.calls
    ensures !HasGenreLabels(params) ==>
      && r == Ok(params)
      && store.hashes == old(store.hashes) && store.ttls == old(store.ttls)
      && client.calls == old(client.calls)
    ensures |old(client.calls)| <= |client.calls| <= |old(client.calls)| + 1
    ensures client.calls[..|old(client.calls)|] == old(client.calls)
    ensures HasGenreLabels(params) && r.Ok? ==>
      var ids := Resolve(store.Hash(TableName(GenreDomain)), params["genres"].labels);
      && ids.Ok? && |ids.value| > 0
      && r.value == params["genres" := Text(JoinIds(ids.value))]
  {
    if !HasGenreLabels(params) {
      return Ok(params);
    }
    var ids := ParamsIdLookup(store, client, params["genres"].labels, GenreDomain);
    if ids.Err? {
      return Err(ids.error);
    }
    if |ids.value| > 0 {
      r := Ok(params["genres" := Text(JoinIds(ids.value))]);
    } else {
      r := Ok(params);
    }
  }

  /**
   * The request hotness counter: `INCR`, and `EXPIRE` for the window only
   * when the count has just become 1, so later hits never extend it.
   */
  method BumpRequest(store: Store, requestName: string) returns (hotness: int)
    requires store.Valid()
    modifies store`counters, store`ttls
    ensures store.Valid()
    ensures hotness == old(store.Count(HotnessKey(requestName))) + 1
    ensures store.counters == old(store.counters)[HotnessKey(requestName) := hotness]
    ensures store.ttls == if hotness == 1 then old(store.ttls)[HotnessKey(requestName) := HotnessTtl] else old(store.ttls)
  {
    var key := HotnessKey(requestName);
    hotness := store.Incr(key);
    if hotness == 1 {
      var _ := store.Expire(key, HotnessTtl);
    }
  }

  /**
   * What the hotness loop has done once it has visited the tracked names in
   * `done`: `hot` holds the new counts of the parameters present among them,
   * and exactly their counters have been bumped and given the window TTL.
   */
  ghost predicate BumpedSoFar(params: Params, done: set<string>, hot: map<string, int>,
                              counters0: map<string, int>, ttls0: map<string, nat>,
                              counters: map<string, int>, ttls: map<string, nat>)
  {
    && hot.Keys == TrackedNames(params, done)
    && counters == Bumped(counters0, CounterKeys(hot.Keys))
    && ttls == Expired(ttls0, CounterKeys(hot.Keys), HotnessTtl)
    && (forall n | n in hot :: hot[n] == CountOf(counters0, ParamCounterKey(n)) + 1)
  }

  /** The loop's counters after one more, not yet bumped, parameter counter is bumped. */
  lemma CountersStep(counters0: map<string, int>, counters: map<string, int>, hot: map<string, int>, name: string)
    requires counters == Bumped(counters0, CounterKeys(hot.Keys))
    requires ParamCounterKey(name) !in CounterKeys(hot.Keys)
    ensures var key := ParamCounterKey(name);
            var count := CountOf(counters, key) + 1;
            && count == CountOf(counters0, key) + 1
            && counters[key := count] == Bumped(counters0, CounterKeys(hot[name := count].Keys))
  {
    var key := ParamCounterKey(name);
    var count := CountOf(counters, key) + 1;
    assert hot[name := count].Keys == hot.Keys + {name};
    CounterKeysStep(hot.Keys, name);
    BumpedStep(counters0, CounterKeys(hot.Keys), key);
  }

  /** The loop's TTLs after one more parameter counter is expired. */
  lemma TtlsStep(ttls0: map<string, nat>, ttls: map<string, nat>, hot: map<string, int>, name: string, count: int)
    requires ttls == Expired(ttls0, CounterKeys(hot.Keys), HotnessTtl)
    ensures ttls[ParamCounterKey(name) := HotnessTtl] == Expired(ttls0, CounterKeys(hot[name := count].Keys), HotnessTtl)
  {
    assert hot[name := count].Keys == hot.Keys + {name};
    CounterKeysStep(hot.Keys, name);
    ExpiredStep(ttls0, CounterKeys(hot.Keys), ParamCounterKey(name), HotnessTtl);
  }

  /** The loop's `hot_params` names after one more present parameter is visited. */
  lemma HotKeysStep(params: Params, done: set<string>, hot: map<string, int>, cp: string, count: int)
    requires cp in CachePriorities && cp in params
    requires hot.Keys == TrackedNames(params, done)
    ensures hot[HotParamName(cp, params[cp]) := count].Keys == TrackedNames(params, done + {cp})
  {
    TrackedNamesStep(params, done, cp);
  }

  /** Visiting a tracked name that is present: one more counter bumped and expired, one more `hot_params` entry. */
  lemma BumpedSoFarStep(params: Params, done: set<string>, hot: map<string, int>,
                        counters0: map<string, int>, ttls0: map<string, nat>,
                        counters: map<string, int>, ttls: map<string, nat>, cp: string)
    requires cp in CachePriorities && cp !in done && cp in params
    requires BumpedSoFar(params, done, hot, counters0, ttls0, counters, ttls)
    ensures var name := HotParamName(cp, params[cp]);
            var key := ParamCounterKey(name);
            var count := CountOf(counters, key) + 1;
            BumpedSoFar(params, done + {cp}, hot[name := count], counters0, ttls0,
                        counters[key := count], ttls[key := HotnessTtl])
  {
    var name := HotParamName(cp, params[cp]);
    var count := CountOf(counters, ParamCounterKey(name)) + 1;
    NotYetCounted(params, done, cp);
    CountersStep(counters0, counters, hot, name);
    TtlsStep(ttls0, ttls, hot, name, count);
    HotKeysStep(params, done, hot, cp, count);
  }

  /** Visiting a tracked name that is absent changes nothing. */
  lemma BumpedSoFarSkip(params: Params, done: set<string>, hot: map<string, int>,
                        counters0: map<string, int>, ttls0: map<string, nat>,
                        counters: map<string, int>, ttls: map<string, nat>, cp: string)
    requires cp in CachePriorities && cp !in params
    requires BumpedSoFar(params, done, hot, counters0, ttls0, counters, ttls)
    ensures BumpedSoFar(params, done + {cp}, hot, counters0, ttls0, counters, ttls)
  {
    TrackedNamesStep(params, done, cp);
  }

  /** Before the loop nothing has been visited, bumped or recorded. */
  lemma BumpedSoFarStart(params: Params, counters: map<string, int>, ttls: map<string, nat>)
    ensures BumpedSoFar(params, {}, map[], counters, ttls, counters, ttls)
  {
    assert TrackedNames(params, {}) == {};
    assert CounterKeys({}) == {};
    assert Bumped(counters, {}) == counters;
    assert Expired(ttls, {}, HotnessTtl) == ttls;
  }

  /** One turn of the hotness loop, for the tracked name `cp`. */
  method BumpParam(store: Store, params: Params, cp: string, hot: map<string, int>,
                   ghost done: set<string>, ghost counters0: map<string, int>, ghost ttls0: map<string, nat>)
    returns (hot': map<string, int>)
    requires store.Valid()
    requires cp in CachePriorities && cp !in done
    requires BumpedSoFar(params, done, hot, counters0, ttls0, store.counters, store.ttls)
    modifies store`counters, store`ttls
    ensures store.Valid()
    ensures BumpedSoFar(params, done + {cp}, hot', counters0, ttls0, store.counters, store.ttls)
  {
    hot' := hot;
    if cp in params {
      var name := HotParamName(cp, params[cp]);
      var key := ParamCounterKey(name);
      ghost var counters, ttls := store.counters, store.ttls;
      BumpedSoFarStep(params, done, hot, counters0, ttls0, counters, ttls, cp);
      var count := store.Incr(key);
      var _ := store.Expire(key, HotnessTtl);
      assert store.counters == counters[key := count] && count == CountOf(counters, key) + 1;
      assert store.ttls == ttls[key := HotnessTtl];
      hot' := hot[name := count];
    } else {
      BumpedSoFarSkip(params, done, hot, counters0, ttls0, store.counters, store.ttls, cp);
    }
  }

  /**
   * The parameter hotness loop over the tracked names (a set, so in no
   * particular order): for each one present, `INCR` its counter, `EXPIRE`
   * it afresh, and record the new count in `hot_params`.
   */
  method BumpParams(store: Store, params: Params) returns (hot: map<string, int>)
    requires store.Valid()
    modifies store`counters, store`ttls
    ensures store.Valid()
    ensures hot.Keys == TrackedNames(params, CachePriorities)
    ensures store.counters == Bumped(old(store.counters), CounterKeys(hot.Keys))
    ensures store.ttls == Expired(old(store.ttls), CounterKeys(hot.Keys), HotnessTtl)
    ensures forall n | n in hot :: hot[n] == old(store.Count(ParamCounterKey(n))) + 1
  {
    hot := map[];
    var remaining := CachePriorities;
    ghost var done: set<string> := {};
    ghost var counters0, ttls0 := store.counters, store.ttls;
    BumpedSoFarStart(params, counters0, ttls0);
    while remaining != {}
      invariant done + remaining == CachePriorities && done !! remaining
      invariant store.Valid()
      invariant BumpedSoFar(params, done, hot, counters0, ttls0, store.counters, store.ttls)
      decreases |remaining|
    {
      var cp :| cp in remaining;
      hot := BumpParam(store, params, cp, hot, done, counters0, ttls0);
      done := done + {cp};
      remaining := remaining - {cp};
    }
  }

  /** A tracked parameter not yet visited has neither a `hot_params` entry nor a bumped counter. */
  lemma NotYetCounted(params: Params, done: set<string>, cp: string)
    requires cp in CachePriorities && cp !in done && cp in params
    ensures HotParamName(cp, params[cp]) !in TrackedNames(params, done)
    ensures ParamCounterKey(HotParamName(cp, params[cp])) !in CounterKeys(TrackedNames(params, done))
  {
    forall cp2 | cp2 in done && cp2 in CachePriorities && cp2 in params
      ensures HotParamName(cp2, params[cp2]) != HotParamName(cp, params[cp])
      ensures ParamCounterKey(HotParamName(cp2, params[cp2])) != ParamCounterKey(HotParamName(cp, params[cp]))
    {
      HotNamesDistinct(cp2, params[cp2], cp, params[cp]);
    }
  }

  /** The cache lookup in probe order: the l1 value if there is one, else the l2 value. */
  function Probe(values: map<string, Body>, requestName: string): (r: Option<(Layer, Body)>)
    ensures r.None? <==> CacheKey(L1, requestName) !in values && CacheKey(L2, requestName) !in values
    ensures r.Some? ==> CacheKey(r.value.0, requestName) in values && r.value.1 == values[CacheKey(r.value.0, requestName)]
    ensures r.Some? && r.value.0 == L2 ==> CacheKey(L1, requestName) !in values
  {
    if CacheKey(L1, requestName) in values then Some((L1, values[CacheKey(L1, requestName)]))
    else if CacheKey(L2, requestName) in values then Some((L2, values[CacheKey(L2, requestName)]))
    else None
  }

  /** An l1 hit is answered without looking at l2: whatever l2 holds, the probe is the same. */
  lemma L1HitIgnoresL2(values: map<string, Body>, requestName: string, other: Body)
    requires CacheKey(L1, requestName) in values
    ensures Probe(values[CacheKey(L2, requestName) := other], requestName) == Probe(values, requestName)
    ensures Probe(values - {CacheKey(L2, requestName)}, requestName) == Probe(values, requestName)
  {
    CacheKeysDistinct(requestName);
  }

  /**
   * A cache hit: classify without a response, copy the cached value to the
   * chosen tier with `SETNX`, reset that tier's TTL, return the value. A
   * failing classification leaves the store as it was.
   */
  method Retier(store: Store, requestName: string, cached: Body, hot: map<string, int>, hotness: int)
    returns (r: Result<Body>)
    requires store.Valid()
    modifies store`values, store`ttls
    ensures store.Valid()
    ensures Classify(hot, hotness, None).Err? ==>
      && r == Err(Classify(hot, hotness, None).error)
      && store.values == old(store.values) && store.ttls == old(store.ttls)
    ensures Classify(hot, hotness, None).Ok? ==>
      var level := Classify(hot, hotness, None).value;
      var key := CacheKey(level.layer, requestName);
      && r == Ok(cached)
      && store.values == (if old(store.Exists(key)) then old(store.values) else old(store.values)[key := cached])
      && store.ttls == old(store.ttls)[key := level.ttl]
  {
    var level := GetCacheLevel(hot, hotness, None);
    if level.Err? {
      return Err(level.error);
    }
    var key := CacheKey(level.value.layer, requestName);
    var _ := store.SetNx(key, cached);
    var _ := store.Expire(key, level.value.ttl);
    r := Ok(cached);
  }

  /** What the creator's fetch yields for an upstream response: the body, or the error raised. */
  ghost function FetchOutcome(resp: Response, hot: map<string, int>, hotness: int): (r: Result<Body>)
    ensures r.Ok? ==> r.value == resp.body && Is2xx(resp.code) && !EmbeddedFailure(resp.body) && !resp.body.Malformed?
    ensures r.Ok? <==> CheckResponse(resp).Ok? && Classify(hot, hotness, Some(resp.body)).Ok?
    ensures CheckResponse(resp).Err? ==> r == Err(CheckResponse(resp).error)
    ensures CheckResponse(resp).Ok? && Classify(hot, hotness, Some(resp.body)).Err? ==>
      r == Err(Classify(hot, hotness, Some(resp.body)).error)
  {
    match CheckResponse(resp)
    case Err(e) => Err(e)
    case Ok(_) =>
      match Classify(hot, hotness, Some(resp.body))
      case Err(e) => Err(e)
      case Ok(_) => Ok(resp.body)
  }

  /**
   * The cache write of a hit or a fetch: when there is a body and a level,
   * `SETNX` the body under the chosen tier and set that tier's TTL;
   * otherwise nothing. Only the request's own tier keys are touched, and no
   * cached value is ever overwritten.
   */
  function CacheWrite(values: map<string, Body>, ttls: map<string, nat>,
                      counters: map<string, int>, hashes: map<string, map<string, int>>,
                      requestName: string, body: Result<Body>, level: Result<CacheLevel>): (r: (map<string, Body>, map<string, nat>))
    ensures forall k | k in values :: k in r.0 && r.0[k] == values[k]
    ensures r.0.Keys <= values.Keys + {CacheKey(L1, requestName), CacheKey(L2, requestName)}
    ensures r.1.Keys <= ttls.Keys + {CacheKey(L1, requestName), CacheKey(L2, requestName)}
    ensures forall k | k in ttls && k != CacheKey(L1, requestName) && k != CacheKey(L2, requestName) :: k in r.1 && r.1[k] == ttls[k]
    ensures body.Err? || level.Err? ==> r == (values, ttls)
  {
    if body.Err? || level.Err? then (values, ttls)
    else
      var key := CacheKey(level.value.layer, requestName);
      assert key == CacheKey(L1, requestName) || key == CacheKey(L2, requestName);
      (if Present(counters, values, hashes, key) then values else values[key := body.value], ttls[key := level.value.ttl])
  }

  /**
   * What serving a named, counted request does to the cached values and
   * TTLs: a hit re-tiers the value found first; a miss the caller creates
   * caches the fetched body; a miss that joins a fetch in flight writes
   * nothing. As for any single write, only the request's own tier keys are
   * touched and no cached value is overwritten.
   */
  ghost function ServeWrite(values: map<string, Body>, ttls: map<string, nat>,
                            counters: map<string, int>, hashes: map<string, map<string, int>>,
                            requestName: string, hot: map<string, int>, hotness: int,
                            resp: Response, joining: bool): (r: (map<string, Body>, map<string, nat>))
    ensures forall k | k in values :: k in r.0 && r.0[k] == values[k]
    ensures r.0.Keys <= values.Keys + {CacheKey(L1, requestName), CacheKey(L2, requestName)}
    ensures r.1.Keys <= ttls.Keys + {CacheKey(L1, requestName), CacheKey(L2, requestName)}
    ensures forall k | k in ttls && k != CacheKey(L1, requestName) && k != CacheKey(L2, requestName) :: k in r.1 && r.1[k] == ttls[k]
    ensures Probe(values, requestName).None? && joining ==> r == (values, ttls)
  {
    match Probe(values, requestName)
    case Some(hit) => CacheWrite(values, ttls, counters, hashes, requestName, Ok(hit.1), Classify(hot, hotness, None))
    case None =>
      if joining then (values, ttls)
      else CacheWrite(values, ttls, counters, hashes, requestName, FetchOutcome(resp, hot, hotness), Classify(hot, hotness, Some(resp.body)))
  }

  /**
   * `fetch_fun`: fetch, classify with the response, `SETNX` the body under
   * the chosen tier and set its TTL, return the body. A failing fetch or
   * classification propagates and caches nothing.
   */
  method FetchAndCache(store: Store, client: Client, requestName: string, params: Params,
                       hot: map<string, int>, hotness: int)
    returns (r: Result<Body>)
    requires store.Valid()
    modifies store`values, store`ttls, client`calls
    ensures store.Valid()
    ensures client.calls == old(client.calls) + [(RequestUrl, params)]
    ensures r == FetchOutcome(client.respond(RequestUrl, params), hot, hotness)
    ensures r.Err? ==> store.values == old(store.values) && store.ttls == old(store.ttls)
    ensures r.Ok? ==>
      var level := Classify(hot, hotness, Some(r.value)).value;
      var key := CacheKey(level.layer, requestName);
      && store.values == (if old(store.Exists(key)) then old(store.values) else old(store.values)[key := r.value])
      && store.ttls == old(store.ttls)[key := level.ttl]
  {
    var fetched := FetchJikan(client, RequestUrl, params);
    if fetched.Err? {
      return Err(fetched.error);
    }
    var body := fetched.value.body;
    var level := GetCacheLevel(hot, hotness, Some(body));
    if level.Err? {
      return Err(level.error);
    }
    var key := CacheKey(level.value.layer, requestName);
    var _ := store.SetNx(key, body);
    var _ := store.Expire(key, level.value.ttl);
    r := Ok(body);
  }

  /**
   * `req_collapser.run(request_name, fetch_fun)` on a double miss: the
   * creator runs `fetch_fun` once and publishes its outcome; a joiner calls
   * nothing, changes nothing, and is left waiting on the pending future.
   */
  method CollapsedFetch(collapser: RequestCollapser, store: Store, client: Client, requestName: string,
                        params: Params, hot: map<string, int>, hotness: int)
    returns (f: Future, creator: bool)
    requires collapser.Valid() && store.Valid()
    modifies collapser, store`values, store`ttls, client`calls
    ensures collapser.Valid() && store.Valid()
    ensures creator <==> requestName !in old(collapser.pendings)
    ensures creator ==>
      && fresh(f)
      && f.outcome == Some(FetchOutcome(client.respond(RequestUrl, params), hot, hotness))
      && client.calls == old(client.calls) + [(RequestUrl, params)]
      && collapser.pendings == old(collapser.pendings)
      && (store.values, store.ttls)
         == CacheWrite(old(store.values), old(store.ttls), store.counters, store.hashes, requestName,
                       FetchOutcome(client.respond(RequestUrl, params), hot, hotness),
                       Classify(hot, hotness, Some(client.respond(RequestUrl, params).body)))
    ensures !creator ==>
      && f == old(collapser.pendings[requestName]) && f.outcome == None
      && client.calls == old(client.calls)
      && collapser.pendings == old(collapser.pendings)
      && store.values == old(store.values) && store.ttls == old(store.ttls)
  {
    f, creator := collapser.Begin(requestName);
    if creator {
      var outcome := FetchAndCache(store, client, requestName, params, hot, hotness);
      RegisterThenRemove(old(collapser.pendings), requestName, f);
      collapser.Finish(requestName, f, outcome);
    }
  }

  /** What a handler call hands back: a result now, or the in-flight future it joined. */
  datatype Reply = Returned(result: Result<Body>) | Awaiting(future: Future)

  /** The request counter and the parameter counters never share a key. */
  lemma CounterFamiliesDistinct(requestName: string, hotName: string)
    ensures HotnessKey(requestName) != ParamCounterKey(hotName)
  {
    assert HotnessKey(requestName)[0] == 'h';
    assert ParamCounterKey(hotName)[0] == 'p';
  }

  /**
   * The TTLs after the hotness steps: the request counter gets the window
   * only when it has just been created, every parameter counter gets it
   * afresh, and nothing else changes.
   */
  function HotnessTtls(ttls: map<string, nat>, requestName: string, hotness: int, hotNames: set<string>): (r: map<string, nat>)
    ensures r.Keys == ttls.Keys + CounterKeys(hotNames) + (if hotness == 1 then {HotnessKey(requestName)} else {})
    ensures forall n | n in hotNames :: r[ParamCounterKey(n)] == HotnessTtl
    ensures hotness == 1 ==> r[HotnessKey(requestName)] == HotnessTtl
    ensures forall k | k in ttls && k !in CounterKeys(hotNames) && (hotness == 1 ==> k != HotnessKey(requestName)) :: r[k] == ttls[k]
  {
    Expired(if hotness == 1 then ttls[HotnessKey(requestName) := HotnessTtl] else ttls, CounterKeys(hotNames), HotnessTtl)
  }

  /**
   * The two hotness steps of the handler: the request counter, then the
   * parameter counters. The families never share a key, so each counter is
   * bumped once from its value before the request.
   */
  method BumpHotness(store: Store, requestName: string, params: Params) returns (hotness: int, hot: map<string, int>)
    requires store.Valid()
    modifies store`counters, store`ttls
    ensures store.Valid()
    ensures store.values == old(store.values)
    ensures hotness == old(store.Count(HotnessKey(requestName))) + 1
    ensures hot.Keys == TrackedNames(params, CachePriorities)
    ensures forall n | n in hot :: hot[n] == old(store.Count(ParamCounterKey(n))) + 1
    ensures store.counters == Bumped(old(store.counters)[HotnessKey(requestName) := hotness], CounterKeys(hot.Keys))
    ensures store.ttls == HotnessTtls(old(store.ttls), requestName, hotness, hot.Keys)
  {
    hotness := BumpRequest(store, requestName);
    hot := BumpParams(store, params);
    forall n | n in hot
      ensures hot[n] == old(store.Count(ParamCounterKey(n))) + 1
    {
      CounterFamiliesDistinct(requestName, n);
    }
  }

  /**
   * The handler after the request has been named and counted: answer from
   * the first cache tier that holds the value, else fetch through the
   * collapser.
   */
  method Serve(store: Store, client: Client, collapser: RequestCollapser, requestName: string,
               params: Params, hot: map<string, int>, hotness: int)
    returns (reply: Reply)
    requires store.Valid() && collapser.Valid()
    modifies store`values, store`ttls, client`calls, collapser
    ensures store.Valid() && collapser.Valid()
    ensures collapser.pendings == old(collapser.pendings)
    ensures (store.values, store.ttls)
      == ServeWrite(old(store.values), old(store.ttls), store.counters, store.hashes, requestName, hot, hotness,
                    client.respond(RequestUrl, params), requestName in old(collapser.pendings))
    // a cache hit answers from the first tier that holds the value, without an upstream fetch
    ensures Probe(old(store.values), requestName).Some? ==>
      var cached := Probe(old(store.values), requestName).value.1;
      var level := Classify(hot, hotness, None);
      && reply == Returned(if level.Ok? then Ok(cached) else Err(level.error))
      && client.calls == old(client.calls)
    // a double miss fetches once through the collapser, or joins the fetch in flight
    ensures Probe(old(store.values), requestName).None? && requestName !in old(collapser.pendings) ==>
      && reply == Returned(FetchOutcome(client.respond(RequestUrl, params), hot, hotness))
      && client.calls == old(client.calls) + [(RequestUrl, params)]
    ensures Probe(old(store.values), requestName).None? && requestName in old(collapser.pendings) ==>
      && reply == Awaiting(old(collapser.pendings[requestName]))
      && reply.future.outcome == None
      && client.calls == old(client.calls)
      && store.values == old(store.values)
  {
    var l1 := store.Get(CacheKey(L1, requestName));
    if l1.Some? {
      var r := Retier(store, requestName, l1.value, hot, hotness);
      return Returned(r);
    }
    var l2 := store.Get(CacheKey(L2, requestName));
    if l2.Some? {
      var r := Retier(store, requestName, l2.value, hot, hotness);
      return Returned(r);
    }
    var f, creator := CollapsedFetch(collapser, store, client, requestName, params, hot, hotness);
    if creator {
      reply := Returned(f.outcome.value);
    } else {
      reply := Awaiting(f);
    }
  }

  /**
   * The handler once the genres are resolved: name the request, count it
   * and its tracked parameters, then serve it. The ghost outputs are the
   * request name, its hotness and the `hot_params` map.
   */
  method CountAndServe(store: Store, client: Client, collapser: RequestCollapser,
                       params: Params, craftKey: Params -> string)
    returns (reply: Reply, ghost requestName: string, ghost hotness: int, ghost hot: map<string, int>)
    requires store.Valid() && collapser.Valid()
    modifies store`counters, store`values, store`ttls, client`calls, collapser
    ensures store.Valid() && collapser.Valid()
    ensures collapser.pendings == old(collapser.pendings)
    ensures requestName == RequestName(craftKey, params)
    // hotness bookkeeping
    ensures hotness == CountOf(old(store.counters), HotnessKey(requestName)) + 1
    ensures hot.Keys == TrackedNames(params, CachePriorities)
    ensures forall n | n in hot :: hot[n] == CountOf(old(store.counters), ParamCounterKey(n)) + 1
    ensures store.counters == Bumped(old(store.counters)[HotnessKey(requestName) := hotness], CounterKeys(hot.Keys))
    // the cache write-through, over the TTLs the counting left
    ensures (store.values, store.ttls)
      == ServeWrite(old(store.values), HotnessTtls(old(store.ttls), requestName, hotness, hot.Keys),
                    store.counters, store.hashes, requestName, hot, hotness,
                    client.respond(RequestUrl, params), requestName in old(collapser.pendings))
    // a cache hit answers from the first tier that holds the value, without an upstream fetch
    ensures Probe(old(store.values), requestName).Some? ==>
      var cached := Probe(old(store.values), requestName).value.1;
      var level := Classify(hot, hotness, None);
      && reply == Returned(if level.Ok? then Ok(cached) else Err(level.error))
      && client.calls == old(client.calls)
    // a double miss fetches once through the collapser, or joins the fetch in flight
    ensures Probe(old(store.values), requestName).None? && requestName !in old(collapser.pendings) ==>
      && reply == Returned(FetchOutcome(client.respond(RequestUrl, params), hot, hotness))
      && client.calls == old(client.calls) + [(RequestUrl, params)]
    ensures Probe(old(store.values), requestName).None? && requestName in old(collapser.pendings) ==>
      && reply == Awaiting(old(collapser.pendings[requestName]))
      && reply.future.outcome == None
      && client.calls == old(client.calls)
      && store.values == old(store.values)
  {
    var name := RequestName(craftKey, params);
    requestName := name;
    var requestHotness, hotParams := BumpHotness(store, name, params);
    hotness, hot := requestHotness, hotParams;
    reply := Serve(store, client, collapser, name, params, hotParams, requestHotness);
  }

  /**
   * `reco_request_handler(params)`. `params` is the validated parameter
   * mapping (genres, when present, a list of labels). The ghost outputs name
   * what the handler worked with: the genre lookup's outcome, the genre
   * resolution's outcome, the upstream calls made up to the end of it, and
   * then the request name, its hotness and the `hot_params` map.
   */
  method RecoRequestHandler(store: Store, client: Client, collapser: RequestCollapser,
                            params: Params, craftKey: Params -> string)
    returns (reply: Reply, ghost lookup: LookupOutcome, ghost resolved: Result<Params>,
             ghost lookupCalls: seq<(string, Params)>,
             ghost requestName: string, ghost hotness: int, ghost hot: map<string, int>)
    requires store.Valid() && collapser.Valid()
    modifies store`counters, store`values, store`hashes, store`ttls, client`calls, collapser
    ensures store.Valid() && collapser.Valid()
    ensures collapser.pendings == old(collapser.pendings)
    // genre resolution: the `genres:anime` lookup, applied to the parameters
    ensures lookup == GenreLookup(old(store.hashes), old(store.ttls),
                                  Present(old(store.counters), old(store.values), old(store.hashes), TableName(GenreDomain)),
                                  client.respond, params)
    ensures resolved == ApplyGenres(params, lookup.result)
    ensures lookupCalls == old(client.calls) + lookup.calls
    ensures store.hashes == lookup.hashes
    ensures !HasGenreLabels(params) ==> resolved == Ok(params) && lookupCalls == old(client.calls)
    ensures |old(client.calls)| <= |lookupCalls| <= |old(client.calls)| + 1
    ensures lookupCalls[..|old(client.calls)|] == old(client.calls)
    // a failed resolution ends the request before any counter, cache entry or fetch
    ensures resolved.Err? ==>
      && HasGenreLabels(params)
      && reply == Returned(Err(resolved.error))
      && store.counters == old(store.counters) && store.values == old(store.values)
      && store.ttls == lookup.ttls
      && client.calls == lookupCalls
    ensures resolved.Ok? ==> requestName == RequestName(craftKey, resolved.value)
    // hotness bookkeeping
    ensures resolved.Ok? ==>
      && hotness == CountOf(old(store.counters), HotnessKey(requestName)) + 1
      && hot.Keys == TrackedNames(resolved.value, CachePriorities)
      && (forall n | n in hot :: hot[n] == CountOf(old(store.counters), ParamCounterKey(n)) + 1)
      && store.counters == Bumped(old(store.counters)[HotnessKey(requestName) := hotness], CounterKeys(hot.Keys))
    // the cache write-through, over the TTLs the lookup and the counting left
    ensures resolved.Ok? ==>
      (store.values, store.ttls)
      == ServeWrite(old(store.values), HotnessTtls(lookup.ttls, requestName, hotness, hot.Keys),
                    store.counters, store.hashes, requestName, hot, hotness,
                    client.respond(RequestUrl, resolved.value), requestName in old(collapser.pendings))
    // a cache hit answers from the first tier that holds the value, without an upstream fetch
    ensures resolved.Ok? && Probe(old(store.values), requestName).Some? ==>
      var cached := Probe(old(store.values), requestName).value.1;
      var level := Classify(hot, hotness, None);
      && reply == Returned(if level.Ok? then Ok(cached) else Err(level.error))
      && client.calls == lookupCalls
    // a double miss fetches once through the collapser, or joins the fetch in flight
    ensures resolved.Ok? && Probe(old(store.values), requestName).None? && requestName !in old(collapser.pendings) ==>
      && reply == Returned(FetchOutcome(client.respond(RequestUrl, resolved.value), hot, hotness))
      && client.calls == lookupCalls + [(RequestUrl, resolved.value)]
    ensures resolved.Ok? && Probe(old(store.values), requestName).None? && requestName in old(collapser.pendings) ==>
      && reply == Awaiting(old(collapser.pendings[requestName]))
      && reply.future.outcome == None
      && client.calls == lookupCalls
      && store.values == old(store.values)
  {
    lookup := GenreLookup(store.hashes, store.ttls, store.Exists(TableName(GenreDomain)), client.respond, params);
    var genres := ResolveGenres(store, client, params);
    assert collapser.Valid() && collapser.pendings == old(collapser.pendings);
    assert store.counters == old(store.counters) && store.values == old(store.values);
    resolved := genres;
    lookupCalls := client.calls;
    requestName, hotness, hot := "", 0, map[];
    if genres.Err? {
      reply := Returned(Err(genres.error));
      return;
    }
    reply, requestName, hotness, hot := CountAndServe(store, client, collapser, genres.value, craftKey);
  }
}

=== FILE: types.dfy ===
/**
 * Values shared by the whole gateway: the failure kinds that can reach a
 * caller, the parts of an upstream JSON response the gateway inspects,
 * request parameters after validation, and the two string helpers the
 * gateway applies to them (ASCII lower-casing and decimal rendering).
 */
module Types {

  datatype Option<+T> = None | Some(value: T)

  /** Everything that can make a request fail, one constructor per exception the code raises. */
  datatype Error =
    | HttpError(status: int)          // an HTTPException carrying an upstream status code
    | InvalidStatus(status: int)      // the ValueError HTTPException raises for an unregistered code without a detail
    | DecodeError                     // `response.json()` on a body that is not JSON
    | MissingData                     // `json["data"]` on a body without a `data` member
    | UnknownTable(table: string)     // KeyError in the lookup-URL dictionary
    | UnresolvedLabel(unresolved: string)  // `int(None)` for a label missing from a lookup table
    | ZeroDivision                    // the hot-parameter average over an empty dictionary

  datatype Result<+T> = Ok(value: T) | Err(error: Error)

  /** One element of an upstream `data` list: its `name` and `mal_id` members. */
  datatype Item = Item(name: string, malId: int)

  /**
   * The decoded body of an upstream response. `Object` is a JSON object with
   * its optional integer `status` member and its optional `data` list;
   * `NonObject` is any other JSON value; `Malformed` is text that is not JSON.
   */
  datatype Body =
    | Malformed
    | NonObject
    | Object(status: Option<int>, data: Option<seq<Item>>)

  /** An upstream HTTP response: status code and body. */
  datatype Response = Response(code: int, body: Body)

  /**
   * A request parameter after validation with `None` values dropped: a single
   * textual value (an enum value, a date, a score) or the list of genre labels.
   */
  datatype ParamValue = Text(text: string) | Labels(labels: seq<string>)

  type Params = map<string, ParamValue>

  /** `body["data"]` as the code reads it: the list, or the error raised on the way. */
  function Data(b: Body): Result<seq<Item>> {
    match b
    case Malformed => Err(DecodeError)
    case NonObject => Err(MissingData)
    case Object(_, data) => if data.Some? then Ok(data.value) else Err(MissingData)
  }

  predicate IsUpper(c: char) {
    'A' <= c <= 'Z'
  }

  function LowerChar(c: char): char {
    if IsUpper(c) then (c as int + 32) as char else c
  }

  /**
   * `str.lower()`, restricted to ASCII letters: no upper-case letter is left,
   * every other character is kept, and each upper-case letter becomes the
   * letter 32 code points above it.
   */
  function Lower(s: string): (r: string)
    ensures |r| == |s|
    ensures forall i | 0 <= i < |r| :: !IsUpper(r[i])
    ensures forall i | 0 <= i < |s| && !IsUpper(s[i]) :: r[i] == s[i]
    ensures forall i | 0 <= i < |s| && IsUpper(s[i]) :: r[i] as int == s[i] as int + 32 && 'a' <= r[i] <= 'z'
  {
    seq(|s|, i requires 0 <= i < |s| => LowerChar(s[i]))
  }

  /** Lower-casing twice is lower-casing once, so a stored lower-cased name is found again under its own lower-cased form. */
  lemma LowerIdempotent(s: string)
    ensures Lower(Lower(s)) == Lower(s)
  {
    var l := Lower(s);
    assert forall i | 0 <= i < |l| :: Lower(l)[i] == l[i];
  }

  /** The character of decimal digit `d`. */
  function DigitChar(d: nat): (c: char)
    requires d < 10
    ensures '0' <= c <= '9' && c as int - '0' as int == d
  {
    ('0' as int + d) as char
  }

  /** The number a string of decimal digits denotes, as `int()` reads it. */
  function DigitsValue(s: string): nat
    requires forall i | 0 <= i < |s| :: '0' <= s[i] <= '9'
    decreases |s|
  {
    if s == [] then 0
    else DigitsValue(s[..|s| - 1]) * 10 + (s[|s| - 1] as int - '0' as int)
  }

  /**
   * `str(n)` for a non-negative integer: a non-empty digit string that reads
   * back as `n`, starting with `0` only when it is `0` itself.
   */
  function NatToString(n: nat): (r: string)
    ensures |r| > 0
    ensures forall i | 0 <= i < |r| :: '0' <= r[i] <= '9'
    ensures DigitsValue(r) == n
    ensures r[0] == '0' <==> n == 0
    ensures |r| > 1 ==> r[0] != '0'
    decreases n
  {
    if n < 10 then [DigitChar(n)]
    else
      var front := NatToString(n / 10);
      var r := front + [DigitChar(n % 10)];
      assert r[..|r| - 1] == front;
      r
  }

  /** `str(i)` for any integer. */
  function IntToString(i: int): (r: string)
    ensures forall k | 0 <= k < |r| :: r[k] != ','
  {
    if i < 0 then "-" + NatToString(-i) else NatToString(i)
  }

  /** The number of commas in a string. */
  function Commas(s: string): nat {
    if s == [] then 0 else (if s[0] == ',' then 1 else 0) + Commas(s[1..])
  }

  /** `s.split(",")`: the comma-separated fields of a string, one more than its commas. */
  function Fields(s: string): (r: seq<string>)
    ensures |r| > 0
    decreases |s|
  {
    if s == [] then [""]
    else if s[0] == ',' then [""] + Fields(s[1..])
    else
      var rest := Fields(s[1..]);
      [[s[0]] + rest[0]] + rest[1..]
  }

  /**
   * `",".join(map(str, ids))`: one comma fewer than there are ids, and
   * splitting the result on commas gives back `str` of each id, in order.
   */
  function JoinIds(ids: seq<int>): (r: string)
    ensures |ids| > 0 ==> |r| > 0 && Commas(r) == |ids| - 1
    ensures |ids| > 0 ==> Fields(r) == seq(|ids|, i requires 0 <= i < |ids| => IntToString(ids[i]))
  {
    if |ids| == 0 then ""
    else if |ids| == 1 then
      NoCommas(IntToString(ids[0]));
      FieldsNoComma(IntToString(ids[0]));
      IntToString(ids[0])
    else
      var head := IntToString(ids[0]);
      var tail := JoinIds(ids[1..]);
      NoCommas(head);
      CommasAppend(head, "," + tail);
      assert ("," + tail)[1..] == tail;
      FieldsPrepend(head, tail);
      head + ("," + tail)
  }

  /** A string without commas is a single field. */
  lemma {:induction false} FieldsNoComma(s: string)
    requires forall k | 0 <= k < |s| :: s[k] != ','
    ensures Fields(s) == [s]
    decreases |s|
  {
    if s != [] {
      FieldsNoComma(s[1..]);
      assert [s[0]] + s[1..] == s;
    }
  }

  /** Joining a comma-free field in front with a comma adds exactly that field in front. */
  lemma {:induction false} FieldsPrepend(a: string, b: string)
    requires forall k | 0 <= k < |a| :: a[k] != ','
    ensures Fields(a + ("," + b)) == [a] + Fields(b)
    decreases |a|
  {
    if a == [] {
      assert a + ("," + b) == "," + b;
      assert ("," + b)[1..] == b;
    } else {
      FieldsPrepend(a[1..], b);
      assert (a + ("," + b))[1..] == a[1..] + ("," + b);
      assert [a[0]] + a[1..] == a;
    }
  }

  /** A string without commas counts none. */
  lemma {:induction false} NoCommas(s: string)
    requires forall k | 0 <= k < |s| :: s[k] != ','
    ensures Commas(s) == 0
    decreases |s|
  {
    if s != [] {
      NoCommas(s[1..]);
    }
  }

  /** Commas add up over concatenation. */
  lemma {:induction false} CommasAppend(a: string, b: string)
    ensures Commas(a + b) == Commas(a) + Commas(b)
    decreases |a|
  {
    if a == [] {
      assert a + b == b;
    } else {
      CommasAppend(a[1..], b);
      assert (a + b)[1..] == a[1..] + b;
    }
  }

  /** Python's `repr` of a list of strings, without quote escaping: `['a', 'b']`. */
  function LabelsRepr(labels: seq<string>): string {
    "[" + QuotedList(labels) + "]"
  }

  function QuotedList(labels: seq<string>): string {
    if |labels| == 0 then ""
    else if |labels| == 1 then "'" + labels[0] + "'"
    else "'" + labels[0] + "', " + QuotedList(labels[1..])
  }

  /** The text an f-string gives a parameter value: `f"{value}"`. */
  function Render(v: ParamValue): string {
    match v
    case Text(s) => s
    case Labels(ls) => LabelsRepr(ls)
  }
}
